=== FILE: README.md ===
# YAFFS2 recovery engine, modelled in Dafny

This project models the recovery core of a YAFFS2 image recovery tool: the
`SuperBlock` engine of `yaffs2_struct.cc` and `yaffs2_struct.h`.

A YAFFS2 NAND image is a run of 2112-byte units. Each unit is a 2048-byte
chunk followed by a 64-byte out-of-band (OOB) tag area.

The engine works in two stages:

- `Build` scans the image forward, one unit at a time. A unit is valid when
  its block id is neither 0 nor 0xFFFFFFFF. It files every valid
  object-header unit whose name is not the C string "unlinked" or "deleted"
  under `objHeaderMap_[obj][block]`. It files every valid data unit under
  `dataChunkMap_[obj][block]`.
- `Recover` walks the header occurrences in the order of three reverse
  loops: objects go by descending id, then blocks by descending id, then
  offsets from the back.
  For each header with a positive size whose object still has a non-empty
  BlockMap in the payload index, it calls `recover`, which peels the
  newest `ceil(size / 2048)` data chunks of that object off the shared
  payload pool and writes them oldest first to a file. The file is named
  after the header's name and mtime.

Modules, one per file:

| file | module | models |
|---|---|---|
| `layout.dfy` | `Layout` | the constants, field offsets and widths, type tags, sentinel names and map types of `yaffs2_struct.h` |
| `codec.dfy` | `Codec` | `convert` (little-endian read), `isUnlinked` / `isDeleted` (`strncmp`), and the name part of `setFilename` |
| `ordered.dfy` | `Ordered` | reverse iteration over `std::map` / `std::vector`: the newest-first `Chain` of (block, offset) slots of a BlockMap, and its `Pool` of offsets |
| `index.dfy` | `Index` | `Clear`, the unit classification, and `Build` with its indexing invariant |
| `recovery.dfy` | `Recovery` | `recover` (as `Collect` and `Rest`), `RecoverFile`, one visit of `Recover`'s inner loop, the whole `Recover` pass, and the bytes written per chunk |
| `peel.dfy` | `PeelFacts` | what one `recover` call takes, writes and leaves behind |
| `pass.dfy` | `PassFacts` | the invariant of the whole pass, `Build` followed by `Recover`, and failed opens |
| `findings.dfy` | `Findings` | concrete pools and units that show the two defects below, next to the corrected behaviour |

Line 109 of `recover` trims the partly taken bucket through `offv.base()`,
which is correct; lines 112-115 then erase through an iterator that has
already moved one block past the last block visited. `Recovery.Mode` keeps both readings:

- `AsWritten` follows the code.
- `Intended` erases exactly the offsets taken.

Every property of the pass is proved for both modes.

Behaviour of the code that the model keeps, where a quick reading could
suggest otherwise:

- **Sentinel test.** `strncmp(UNLINKED, name, 255)` stops at the marker's
  NUL, so the test is exact C-string equality, not a prefix test: a header
  named `unlinked2` is still filed. See `Codec.IsUnlinked`.
- **Global stop.** `Recover` tests `!dataChunkMap_.empty()` before each
  block and each offset, but `recover` never erases a top-level object id.
  So the test only fires when the payload index was empty from the start.
  `Recovery.Recover` states that the key set is unchanged.
- **Payload size.** `recover` writes as many bytes of each unit as the
  unit's own byte-count field says, with no cap (Findings, row 2).
- **Two versions, 3 then 4 chunks.** Take one object with two header
  versions: the newer needs 3 chunks, the older 4, over 5 payload units.
  - The newer file gets the newest 3 units.
  - Under the intended erase, the older file gets the 2 units left.
  - As written, that happens only when the newer file's chunks end on a
    block boundary. Even then, the older version's peel visits every
    block left (it needs 4 and only 2 remain), so line 112 dereferences `rend()` before anything is
    written (`Findings.TwoVersionsTwoBlocks`). The older file gets 2 units
    only if execution survives that undefined dereference. The model
    assumes it does, with the evident outcome: an empty BlockMap.
  - When all 5 units sit in one block, the newer version's peel already
    reaches `rend()` (`Findings.OneBlockReachesRend`). The intended reading
    still gives 3 and then 2 (`Findings.OneBlockIntended`).

## Model

| member | source | states |
|---|---|---|
| Layout.UnitSize | yaffs2_struct.h:20-22 | a unit is a 2048-byte chunk plus a 64-byte OOB area, 2112 bytes in all |
| Layout.OobFieldsInsideUnit | yaffs2_struct.h:24-40 | the block id, object id, chunk id, byte count and type byte all lie inside the OOB area of one unit |
| Layout.HeaderFieldsInsideChunk | yaffs2_struct.h:27-40 | the 255-byte name field ends before the mtime field, and mtime ends inside the chunk area |
| Layout.TypeByteOutsideIds | yaffs2_struct.h:25-29 | the type byte overlaps neither the two-byte object id nor the four-byte block id |
| Layout.TypeTagsDistinct | yaffs2_struct.h:42-49 | the six object type tags are pairwise distinct |
| Layout.SentinelsShape | yaffs2_struct.h:51-52 | the sentinel names hold no NUL, neither C array is a prefix of the other, and both fit in the name field |
| Codec.Convert | yaffs2_struct.cc:133-143 | the loop's result is the little-endian value Σ buf[begin+i]·256^i of the field, and it is below 256^nbytes |
| Codec.LittleEndianBound | yaffs2_struct.cc:133-143 | an n-byte little-endian field is below 256^n (so a 2-byte object id is below 65536) |
| Codec.DecodeEncode | yaffs2_struct.cc:133-143 | decoding the n-byte encoding of a value below 256^n gives the value back |
| Codec.EncodeDecode | yaffs2_struct.cc:133-143 | encoding a decoded field gives back its bytes |
| Codec.StrnEqIsCStringEquality | yaffs2_struct.cc:145-151 | `strncmp` of a NUL-terminated marker against a longer field is zero exactly when the field holds the marker followed by NUL, not when the marker is merely a prefix |
| Codec.IsUnlinked | yaffs2_struct.cc:145-147 | `isUnlinked` holds exactly when the stored name is the C string "unlinked" |
| Codec.IsDeleted | yaffs2_struct.cc:149-151 | `isDeleted` holds exactly when the stored name is the C string "deleted" |
| Codec.CName | yaffs2_struct.cc:153-154 | the name `strncpy` copies is the field up to (not including) its first NUL, or the whole field when it has none |
| Codec.OutputName | yaffs2_struct.cc:153-167 | the output name is the stored name, a space, "[", the rendered mtime field `stamp(mtime)`, and "]" |
| Index.Clear | yaffs2_struct.cc:15-20 | after `Clear` neither index holds any object id, so every bucket reads empty |
| Index.Classify | yaffs2_struct.cc:30-47 | a unit is filed as a header iff its block id is neither 0 nor 0xFFFFFFFF, its type is HEADER and its name is neither sentinel; as data iff the block id is valid and its type is DATA; the keys are the decoded object id (below 65536) and block id |
| Index.Append | yaffs2_struct.cc:39-44 | `m[o][b].push_back(x)` appends x to bucket (o, b), creates missing keys, and changes no other bucket |
| Index.Build | yaffs2_struct.cc:22-51 | `Build` never clears: every bucket it starts with is a prefix of the bucket it leaves, since units are only appended |
| Index.BuildIndexesImage | yaffs2_struct.cc:22-51 | from cleared indices, x is filed under (o, b) in the header index iff the unit at x is a non-sentinel header of object o in block b (the same for data); all buckets are non-empty and strictly increasing |
| Index.BuildLayout | yaffs2_struct.cc:26-48 | every filed offset is a multiple of 2112 with a whole unit after it (a trailing partial unit is never filed), with a valid block id and an object id below 65536; no offset is in both indices |
| Ordered.ChainNewestFirst | yaffs2_struct.cc:101-108 | on well-formed buckets, the reverse iteration over blocks and offsets visits slots in strictly decreasing (block, offset) order |
| Ordered.PoolDistinct | yaffs2_struct.cc:101-108 | when an offset determines its block, the reverse iteration meets no offset twice |
| Recovery.ChunkCount | yaffs2_struct.cc:76 | `size / 2048 + (size % 2048 != 0)` is the ceiling of size / 2048: at least 1, and (n-1)·2048 < size ≤ n·2048 |
| Recovery.OccurrencesFiled | yaffs2_struct.cc:62-70 | every header occurrence `Recover` visits is filed in the header index |
| Recovery.OccurrencesComplete | yaffs2_struct.cc:62-70 | every filed header offset is visited by `Recover`'s three nested loops |
| Recovery.OccurrencesNewestFirst | yaffs2_struct.cc:62-70 | on well-formed buckets, `Recover` visits header occurrences by descending object id, then within an object by descending (block, offset) |
| Recovery.Collect | yaffs2_struct.cc:101-108 | `recover` pushes at most `n_chunks` offsets |
| Recovery.RestAsWritten | yaffs2_struct.cc:109-115 | as written, every call erases at least one whole block (the newest), even when only part of it was taken, so the BlockMap always shrinks; which blocks go is stated by PeelFacts.RestAsWrittenErasesVisited and PeelFacts.RestAsWrittenKeepsUnvisited |
| Recovery.RecoverFile | yaffs2_struct.cc:92-131 | `recover` returns YAFFS2_OK exactly when `fopen` succeeds; on failure it returns YAFFS2_FAILURE and touches nothing; it writes at most `n_chunks` chunks |
| Recovery.Visit | yaffs2_struct.cc:66-85 | one header occurrence erases no object id and adds at most one file to the output, keeping the earlier ones |
| Recovery.Walk | yaffs2_struct.cc:62-88 | a run of visits erases no object id and adds at most one file per occurrence, keeping the earlier ones |
| Recovery.Recover | yaffs2_struct.cc:53-90 | `Recover` returns YAFFS2_OK, leaves the header index alone, erases no object id (so the `empty()` guards only matter for an empty payload index), and writes at most one file per header occurrence |
| Recovery.ChunkBytesAgree | yaffs2_struct.cc:119-120 | when the count is at most 2048 the corrected read and the read as written agree |
| Recovery.ChunkBytesIgnoresTags | yaffs2_struct.cc:117-122 | the corrected read takes at most 2048 bytes and nothing from the OOB area beyond the byte count: units with the same chunk area and count give the same bytes |
| Recovery.FileContentBound | yaffs2_struct.cc:117-122 | a file holds at most 2048 bytes per chunk and begins with the payload of its oldest chunk |
| PeelFacts.CollectTakesNewest | yaffs2_struct.cc:101-108 | `recover` pushes exactly the first min(n, pool size) slots of the newest-first chain |
| PeelFacts.RestIntendedIsRemainder | yaffs2_struct.cc:109-115 | under the intended erase, the pool left is exactly the old pool without the taken slots |
| PeelFacts.RestAsWrittenIsSuffix | yaffs2_struct.cc:109-115 | as written, the pool left is a final part of the old pool without the taken slots (which blocks survive is stated by the two lemmas below) |
| PeelFacts.RestAsWrittenErasesVisited | yaffs2_struct.cc:101-115 | as written, every block kept is older than every slot taken: each visited block is erased whole |
| PeelFacts.RestAsWrittenKeepsUnvisited | yaffs2_struct.cc:101-115 | as written, on a well-formed pool whose peel stops before `rend()`, every block older than all the taken slots is kept |
| PeelFacts.RestShape | yaffs2_struct.cc:109-115 | both readings keep a subset of the blocks, each with a front part of its bucket, and keep buckets non-empty and increasing |
| PeelFacts.ReachesRendEmpties | yaffs2_struct.cc:112-115 | when the peel visits every block, line 112 is reached at `rend()`; the model's outcome there is an empty BlockMap |
| PeelFacts.RecoverFileSpec | yaffs2_struct.cc:92-131 | a failed `fopen` gives YAFFS2_FAILURE and changes nothing; otherwise YAFFS2_OK, the file gets the newest min(n, pool size) chunks oldest first, and the pool left is a final part (intended: exactly) of the rest; as written the blocks kept are untouched and older than every chunk taken, and short of `rend()` every such older block is kept |
| PeelFacts.TakenNewerThanLeft | yaffs2_struct.cc:101-121 | every chunk taken is newer than every chunk left, and the file receives its chunks in strictly increasing (block, offset) order |
| PassFacts.VisitSpec | yaffs2_struct.cc:66-85 | a header occurrence writes a file iff the payload index is non-empty, the size is positive, the object has a non-empty BlockMap and the file opens; the file is named after the header and holds the newest min(ceil(size/2048), pool size) chunks; nothing else changes otherwise, and no other object's pool changes |
| PassFacts.WalkKeepsInv | yaffs2_struct.cc:62-88 | the pass invariant (same objects, pools only shrink to final parts, files cut from their own object's pool, no chunk in two files) holds after any run of visits |
| PassFacts.RecoverWritesEachChunkOnce | yaffs2_struct.cc:53-90 | `Recover` returns YAFFS2_OK, leaves the header index alone, erases no object id, leaves each pool a final part of the original, writes each file from its own object's chunks that are then gone from the pool, and writes no chunk to two files |
| PassFacts.RecoverNothingOpens | yaffs2_struct.cc:79-90 | when no output file opens, `Recover` still returns YAFFS2_OK and leaves both indices as they were |
| PassFacts.ClearThenRecover | yaffs2_struct.cc:15-20 | after `Clear`, `Recover` writes nothing and returns YAFFS2_OK |
| PassFacts.BuildPrepares | yaffs2_struct.cc:22-51 | after `Build`, every header offset addresses a whole unit, and the payload pools have no repeats and share no offset across objects |
| PassFacts.BuildThenRecover | yaffs2_struct.cc:22-90 | after `Build` then `Recover`, every file holds only data units of its own object, and no data unit lands in two files |
| Findings.TwoVersionsTwoBlocks | yaffs2_struct.cc:92-115 | two versions needing 3 and 4 chunks over 5 chunks in two blocks: under both readings the newer file gets units 2, 3, 4; the older version's peel reaches `rend()` as written, and the older file gets units 0, 1 (as written, only by taking the evident outcome at `rend()`) |
| Findings.OneBlockReachesRend | yaffs2_struct.cc:101-115 | the same versions over 5 chunks in one block: as written the first peel reaches `rend()` and empties the pool |
| Findings.SingleBlockReachesRend | yaffs2_struct.cc:101-115 | as written, every peel of a one-block pool reaches `rend()` |
| Findings.OneBlockIntended | yaffs2_struct.cc:101-115 | over the one-block pool, the intended erase gives the newer file units 2, 3, 4 and the older file units 0, 1 |
| Findings.SplitBlockLosesUntaken | yaffs2_struct.cc:101-115 | as written, a 3-chunk peel inside a 5-unit block erases the whole block, losing units 0 and 1 that no file received; the intended erase keeps them |
| Findings.LongCountOverReads | yaffs2_struct.cc:117-122 | a data unit whose count field is 3000 makes the read as written run past the 2112-byte buffer; the corrected read writes 2048 bytes |

## Left out

- File I/O is not modelled: `rewind`, `ftell`, `fseek`, `fread`, `fwrite`, `fclose`. The image is a byte sequence passed to `Build` and `Recover`, and a written file is the list of its chunk offsets (`Output`). `Recovery.FileContent` gives the file's bytes.
- `fopen` is a parameter `opens(name)`. `perror` and the `printf` at line 80 produce only console text and are left out.
- `localtime` and the `sprintf` format of the date are a parameter `stamp`, mapping the decoded mtime to its text.
- The `sprintf` at lines 159-167 reads from the same buffer it writes. That is undefined behaviour in C. The model builds the name from the stored name instead.
- The 285-byte static name buffer could overflow for a long `stamp` text. This is not modelled.
- A name field with no NUL: `strncpy` leaves the buffer unterminated, so the source then reads stale bytes. The model uses the whole 255-byte field.
- Two outputs with the same name overwrite each other on disk. The log keeps both entries.
- `assert(n_chunks > 0)` at line 93 is the precondition n > 0. The caller guarantees it, since size > 0.
- The constructor, the destructor and the `fp_` handle are left out; the image is passed explicitly.
- Command-line handling in `yaffs2_recovery.cc` is not part of this model.
- Integer widths: `convert` reads at most 4 bytes, so its value is below 2^32 and no `unsigned` arithmetic here wraps. Offsets and ids are unbounded naturals.
- Codec.Convert: requires nbytes ≤ 4. The source only asserts nbytes > 0, but a wider read shifts a 32-bit value by 32 or more, which C leaves undefined. The model computes the OR as an addition, which is equal because the shifted byte lands on zero bits.
- PeelFacts.ReachesRendEmpties: dereferencing `rend()` at line 112 is undefined behaviour. The as-written model gives the evident outcome, an empty BlockMap, and proves nothing beyond that.
- Recovery.FileContent: the bytes of a file use the corrected `ChunkBytes`, because the read as written is undefined past 2112 bytes.
- Recovery.FileContentBound: the bound of 2048 bytes per chunk holds for the corrected read only. For a count from 2049 to 2112 the source's `fwrite` is well defined and also writes OOB tag bytes into the file, so its file can exceed the bound.
- `Clear` and `Build` always return YAFFS2_OK (lines 19 and 50). The model's `Index.Clear` and `Index.Build` return only the indices.

## Findings

| source | as written | input that shows it | evidently intended | confidence | as-written member | corrected member |
|---|---|---|---|---|---|---|
| yaffs2_struct.cc:101-115 | after the collecting loop, `block` is one past the last visited block; line 115 then erases every visited block whole, including the untaken front of a partly used bucket; when every block was visited, line 112 dereferences `rend()` | block 2 = units 0..4, block 1 = unit 5, n = 3: units 0 and 1 are erased but never written; a pool in a single block always reaches `rend()` | remove exactly the collected offsets, as line 109 already does per bucket, and drop the buckets left empty | high, not executed | Findings.SplitBlockLosesUntaken | PeelFacts.RestIntendedIsRemainder |
| yaffs2_struct.cc:117-122 | `fwrite` writes `convert(OFF_SIZE, LEN_SIZE)` bytes of the 2112-byte buffer, uncapped | a data unit whose count field holds 3000 (bytes B8 0B 00 00 at OOB offset 12) | write at most the 2048-byte chunk area | medium, not executed | Findings.LongCountOverReads | Recovery.FileContentBound |

=== FILE: codec.dfy ===
/**
 Field decoding inside one unit buffer: the little-endian integer reader,
 the `strncmp` comparisons against the sentinel names, and the stored-name
 part of the output file name.
 */
module Codec {
  import opened Layout

  /** 256 to the power n. */
  function Pow256(n: nat): (r: nat)
    ensures r >= 1
  {
    if n == 0 then 1 else 256 * Pow256(n - 1)
  }

  /** Reference meaning of a little-endian field: the sum of bs[i] * 256^i. */
  function LittleEndian(bs: seq<uint8>): nat
  {
    if |bs| == 0 then 0 else bs[0] as nat + 256 * LittleEndian(bs[1..])
  }

  /** The value of the n-byte little-endian field at `begin`. */
  function Field(buf: seq<uint8>, begin: nat, n: nat): nat
    requires begin + n <= |buf|
  {
    LittleEndian(buf[begin..begin + n])
  }

  /** The n-byte little-endian encoding of v (inverse of LittleEndian). */
  function ToLittleEndian(v: nat, n: nat): (r: seq<uint8>)
    ensures |r| == n
  {
    if n == 0 then [] else [(v % 256) as uint8] + ToLittleEndian(v / 256, n - 1)
  }

  /** An n-byte field is below 256^n. */
  lemma {:induction false} LittleEndianBound(bs: seq<uint8>)
    ensures LittleEndian(bs) < Pow256(|bs|)
  {
    if |bs| > 0 {
      LittleEndianBound(bs[1..]);
    }
  }

  /** Appending a byte adds it at the next power of 256. */
  lemma {:induction false} LittleEndianAppend(bs: seq<uint8>, b: uint8)
    ensures LittleEndian(bs + [b]) == LittleEndian(bs) + b as nat * Pow256(|bs|)
  {
    if |bs| == 0 {
      assert (bs + [b])[1..] == [];
    } else {
      assert (bs + [b])[1..] == bs[1..] + [b];
      LittleEndianAppend(bs[1..], b);
    }
  }

  /** Decoding an encoding gives the value back. */
  lemma {:induction false} DecodeEncode(v: nat, n: nat)
    requires v < Pow256(n)
    ensures LittleEndian(ToLittleEndian(v, n)) == v
  {
    if n > 0 {
      var r := ToLittleEndian(v, n);
      assert r[1..] == ToLittleEndian(v / 256, n - 1);
      DecodeEncode(v / 256, n - 1);
    }
  }

  /** Encoding a decoded field gives the bytes back. */
  lemma {:induction false} EncodeDecode(bs: seq<uint8>)
    ensures ToLittleEndian(LittleEndian(bs), |bs|) == bs
  {
    if |bs| > 0 {
      var v := LittleEndian(bs);
      assert v % 256 == bs[0] as nat;
      assert v / 256 == LittleEndian(bs[1..]);
      EncodeDecode(bs[1..]);
    }
  }

  /**
   The unsigned little-endian read of `nbytes` bytes at `begin`, as the
   source's loop computes it: the first byte, then each further byte shifted
   8 bits further left into the accumulator. The bits a byte lands on are
   still zero (the accumulator is below 256^i), so OR-ing it in is adding
   byte * 256^i, which is how the model writes it. Widths above 4 would shift
   a 32-bit value by 32 or more, which C leaves undefined.
   */
  method Convert(buf: seq<uint8>, begin: nat, nbytes: nat) returns (ret: nat)
    requires 0 < nbytes <= 4
    requires begin + nbytes <= |buf|
    ensures ret == Field(buf, begin, nbytes)
    ensures ret < Pow256(nbytes)
  {
    ret := buf[begin] as nat;
    var i: nat := 1;
    assert buf[begin..begin + 1][1..] == [];
    while i < nbytes
      invariant 1 <= i <= nbytes
      invariant ret == LittleEndian(buf[begin..begin + i])
    {
      ret := ret + buf[begin + i] as nat * Pow256(i);
      assert buf[begin..begin + i + 1] == buf[begin..begin + i] + [buf[begin + i]];
      LittleEndianAppend(buf[begin..begin + i], buf[begin + i]);
      i := i + 1;
    }
    LittleEndianBound(buf[begin..begin + nbytes]);
  }

  /**
   `strncmp(s1, s2, n) == 0`: the two C strings agree on their first n
   characters, where the comparison stops early at a NUL both share.
   It reads s1 only up to its first NUL, so s1 may be shorter than n
   when it holds one; s2 must have n readable bytes.
   */
  predicate StrnEq(s1: seq<uint8>, s2: seq<uint8>, n: nat)
    requires n <= |s2|
    requires n <= |s1| || 0 in s1
    decreases n
  {
    n == 0 || (s1[0] == s2[0] && (s1[0] == 0 || StrnEq(s1[1..], s2[1..], n - 1)))
  }

  /**
   Comparing a NUL-terminated marker with strncmp over a longer field is
   C-string equality, not a prefix test: the field's first |m| bytes are m
   and the next one is NUL.
   */
  lemma {:induction false} StrnEqIsCStringEquality(m: seq<uint8>, field: seq<uint8>, n: nat)
    requires 0 !in m
    requires |m| < n <= |field|
    ensures StrnEq(m + [0], field, n) <==> field[..|m|] == m && field[|m|] == 0
  {
    if |m| == 0 {
      assert (m + [0])[0] == 0;
    } else {
      var c := m + [0];
      assert c[1..] == m[1..] + [0];
      assert 0 in c;
      StrnEqIsCStringEquality(m[1..], field[1..], n - 1);
      if field[..|m|] == m && field[|m|] == 0 {
        assert field[1..][..|m| - 1] == m[1..];
      }
      if StrnEq(c, field, n) {
        assert field[1..][..|m| - 1] == m[1..];
        assert field[..|m|] == [field[0]] + field[1..][..|m| - 1];
      }
    }
  }

  /** The name field of a unit holds exactly the C string m. */
  predicate NameIs(unit: seq<uint8>, m: seq<uint8>)
    requires |unit| == SIZE_UNIT
    requires |m| < LEN_NAME
  {
    unit[OFF_NAME..OFF_NAME + |m|] == m && unit[OFF_NAME + |m|] == 0
  }

  /**
   The header names an unlinked object: `strncmp(UNLINKED, name, 255)` is
   zero. The comparison stops at the marker's NUL, so this holds exactly
   when the stored name is the C string "unlinked", not merely when it
   starts with it.
   */
  function IsUnlinked(unit: seq<uint8>): (r: bool)
    requires |unit| == SIZE_UNIT
    ensures r <==> NameIs(unit, UNLINKED)
  {
    SentinelsShape();
    var field := unit[OFF_NAME..OFF_NAME + LEN_NAME];
    StrnEqIsCStringEquality(UNLINKED, field, LEN_NAME);
    assert field[..|UNLINKED|] == unit[OFF_NAME..OFF_NAME + |UNLINKED|];
    StrnEq(UNLINKED_C, field, LEN_NAME)
  }

  /**
   The header names a deleted object: `strncmp(DELETED, name, 255)` is
   zero, which holds exactly when the stored name is the C string "deleted".
   */
  function IsDeleted(unit: seq<uint8>): (r: bool)
    requires |unit| == SIZE_UNIT
    ensures r <==> NameIs(unit, DELETED)
  {
    SentinelsShape();
    var field := unit[OFF_NAME..OFF_NAME + LEN_NAME];
    StrnEqIsCStringEquality(DELETED, field, LEN_NAME);
    assert field[..|DELETED|] == unit[OFF_NAME..OFF_NAME + |DELETED|];
    StrnEq(DELETED_C, field, LEN_NAME)
  }

  /**
   The C string `strncpy` copies out of a name field: everything before the
   first NUL, or the whole field when it has none.
   */
  function CName(field: seq<uint8>): (r: seq<uint8>)
    ensures |r| <= |field| && r == field[..|r|]
    ensures 0 !in r
    ensures |r| == |field| || field[|r|] == 0
  {
    if |field| == 0 || field[0] == 0 then []
    else [field[0]] + CName(field[1..])
  }

  /**
   Output file name of a header unit: its stored name, a space and the
   bracketed modification time. `stamp` renders the mtime (seconds since the
   epoch) as the "YYYY-M-D-HH-MM-SS" text through the host's local calendar.
   */
  function OutputName(unit: seq<uint8>, stamp: nat -> seq<uint8>): (r: seq<uint8>)
    requires |unit| == SIZE_UNIT
    ensures var name := CName(unit[OFF_NAME..OFF_NAME + LEN_NAME]);
            && |name| + 3 <= |r| && r[..|name|] == name
            && r[|name|] == Ascii(" ")[0] && r[|name| + 1] == Ascii("[")[0]
            && r[|name| + 2..|r| - 1] == stamp(Field(unit, OFF_MTIME, LEN_MTIME))
    ensures r[|r| - 1] == Ascii("]")[0]
  {
    var name := CName(unit[OFF_NAME..OFF_NAME + LEN_NAME]);
    name + Ascii(" [") + stamp(Field(unit, OFF_MTIME, LEN_MTIME)) + Ascii("]")
  }
}

=== FILE: findings.dfy ===
/**
 Concrete runs of `recover` that show where the code as written departs
 from what it evidently means to do, next to the corrected behaviour.
 */
module Findings {
  import opened Layout
  import opened Codec
  import opened Ordered
  import opened Index
  import opened Recovery
  import opened PeelFacts

  /** Every output file can be opened. */
  function AllOpen(name: seq<uint8>): bool
  {
    true
  }

  /** Unit offsets 0, 1, 2, ... of an image. */
  function U(i: nat): nat
  {
    i * SIZE_UNIT
  }

  /** The newest two blocks of a pool: block 2 holds three units, block 1 two. */
  const TwoBlocks: BlockMap := map[1 := [U(0), U(1)], 2 := [U(2), U(3), U(4)]]

  /** A pool whose five units all sit in one block. */
  const OneBlock: BlockMap := map[1 := [U(0), U(1), U(2), U(3), U(4)]]

  /** A pool where a three-chunk file stops inside block 2 (units 0, 1, 2, 3, 4). */
  const SplitBlock: BlockMap := map[2 := [U(0), U(1), U(2), U(3), U(4)], 1 := [U(5)]]

  lemma MaxOfTwo(a: nat, b: nat)
    requires a < b
    ensures MaxOf({a, b}) == b
  {
  }

  lemma MaxOfOne(a: nat)
    ensures MaxOf({a}) == a
  {
  }

  lemma NewestTwo(k: nat, a: nat, b: nat)
    ensures Newest(k, [a, b]) == [Slot(k, b), Slot(k, a)]
  {
  }

  lemma NewestThree(k: nat, a: nat, b: nat, c: nat)
    ensures Newest(k, [a, b, c]) == [Slot(k, c), Slot(k, b), Slot(k, a)]
  {
  }

  lemma NewestFiveFront(k: nat, v: OffsetVector)
    requires |v| == 5
    ensures Newest(k, v)[..3] == [Slot(k, v[4]), Slot(k, v[3]), Slot(k, v[2])]
  {
  }

  /**
   Two header versions of one object, the newer needing 3 chunks and the
   older 4, over a 5-chunk pool laid out as block 2 = units 2..4 and
   block 1 = units 0..1. Under both readings the newer file gets units
   2, 3, 4. The older version's peel then visits the one block left, so as
   written it reaches `rend()` at line 112 before anything is written. The
   older file gets units 0, 1 under the intended erase; as written only if
   execution survives that dereference, which the model assumes.
   */
  lemma TwoVersionsTwoBlocks(mode: Mode)
    ensures var first := RecoverFile(mode, Ascii("new"), 3, TwoBlocks, AllOpen);
      && first.status == YAFFS2_OK
      && first.written == [U(2), U(3), U(4)]
      && first.rest == map[1 := [U(0), U(1)]]
      && ReachesRend(first.rest, 4)
      && RecoverFile(mode, Ascii("old"), 4, first.rest, AllOpen).written == [U(0), U(1)]
  {
    var bm := TwoBlocks;
    assert bm.Keys == {1, 2};
    MaxOfTwo(1, 2);
    var w := Without(bm, 2);
    assert w == map[1 := [U(0), U(1)]];
    NewestThree(2, U(2), U(3), U(4));
    assert Collect(bm, 3) == [Slot(2, U(4)), Slot(2, U(3)), Slot(2, U(2))];
    assert Offs(Collect(bm, 3)) == [U(4), U(3), U(2)];
    MaxOfOne(1);
    assert w.Keys == {1};
    assert EraseFrom(w) == w;
    assert RestAsWritten(bm, 3) == w;
    assert RestIntended(bm, 3) == w;
    NewestTwo(1, U(0), U(1));
    assert Collect(w, 4) == [Slot(1, U(1)), Slot(1, U(0))];
    assert Offs(Collect(w, 4)) == [U(1), U(0)];
  }

  /**
   Finding, as written: the same two versions over a pool in a single
   block. The first `recover` visits every block, so line 112 dereferences
   `rend()`; the model's outcome is an empty BlockMap, which leaves the
   older version nothing.
   */
  lemma OneBlockReachesRend()
    ensures ReachesRend(OneBlock, 3)
    ensures RestAsWritten(OneBlock, 3) == map[]
  {
  }

  /** Any pool of one block reaches `rend()` on every call, as written. */
  lemma SingleBlockReachesRend(bm: BlockMap, n: nat)
    requires n > 0 && |bm| == 1
    ensures ReachesRend(bm, n)
    ensures RestAsWritten(bm, n) == map[]
  {
  }

  /**
   Finding, corrected: over the single-block pool the intended erase gives
   the newer version units 2, 3, 4 and leaves units 0, 1 for the older one.
   */
  lemma OneBlockIntended()
    ensures var first := RecoverFile(Intended, Ascii("new"), 3, OneBlock, AllOpen);
      && first.written == [U(2), U(3), U(4)]
      && first.rest == map[1 := [U(0), U(1)]]
      && RecoverFile(Intended, Ascii("old"), 4, first.rest, AllOpen).written == [U(0), U(1)]
  {
    var v := OneBlock[1];
    assert OneBlock.Keys == {1};
    MaxOfOne(1);
    NewestFiveFront(1, v);
    assert Collect(OneBlock, 3) == [Slot(1, U(4)), Slot(1, U(3)), Slot(1, U(2))];
    assert Offs(Collect(OneBlock, 3)) == [U(4), U(3), U(2)];
    var rest := RestIntended(OneBlock, 3);
    assert v[..2] == [U(0), U(1)];
    assert rest == map[1 := [U(0), U(1)]];
    assert rest.Keys == {1};
    NewestTwo(1, U(0), U(1));
    assert Collect(rest, 4) == [Slot(1, U(1)), Slot(1, U(0))];
    assert Offs(Collect(rest, 4)) == [U(1), U(0)];
  }

  /**
   Finding, as written: a three-chunk file taken from block 2 of five
   units erases all of block 2, so units 0 and 1, never written, are lost;
   the intended erase keeps them.
   */
  lemma SplitBlockLosesUntaken()
    ensures RecoverFile(AsWritten, Ascii("f"), 3, SplitBlock, AllOpen).written == [U(2), U(3), U(4)]
    ensures RestAsWritten(SplitBlock, 3) == map[1 := [U(5)]]
    ensures RestIntended(SplitBlock, 3) == map[2 := [U(0), U(1)], 1 := [U(5)]]
    ensures U(0) in Pool(SplitBlock) && U(0) !in Pool(RestAsWritten(SplitBlock, 3))
  {
    var bm := SplitBlock;
    var v := bm[2];
    assert bm.Keys == {1, 2};
    MaxOfTwo(1, 2);
    NewestFiveFront(2, v);
    assert Collect(bm, 3) == [Slot(2, U(4)), Slot(2, U(3)), Slot(2, U(2))];
    assert Offs(Collect(bm, 3)) == [U(4), U(3), U(2)];
    var w := Without(bm, 2);
    assert w == map[1 := [U(5)]];
    assert w.Keys == {1};
    MaxOfOne(1);
    assert EraseFrom(w) == w;
    assert v[..2] == [U(0), U(1)];
    ChainUnfold(bm);
    assert Newest(2, v)[4] == Slot(2, U(0));
    assert Pool(bm)[4] == U(0);
    var r := RestAsWritten(bm, 3);
    assert r == w;
    ChainUnfold(r);
    assert Chain(Without(r, 1)) == [];
    assert Pool(r) == [U(5)];
  }

  /** A data unit whose byte-count field holds 3000 (bytes B8 0B 00 00). */
  function LongCountUnit(): (u: seq<uint8>)
    ensures |u| == SIZE_UNIT
  {
    seq(SIZE_UNIT, i requires 0 <= i < SIZE_UNIT =>
      if i == OFF_SIZE then 0xB8 else if i == OFF_SIZE + 1 then 0x0B else 0)
  }

  /**
   Finding, as written: lines 119-120 write as many bytes as the unit's own
   byte-count field says, so a count of 3000 reads past the 2112-byte
   buffer; the corrected read caps it at the 2048-byte chunk area.
   */
  lemma LongCountOverReads()
    ensures Field(LongCountUnit(), OFF_SIZE, LEN_SIZE) == 3000
    ensures ChunkBytesAsWritten(LongCountUnit()).None?
    ensures |ChunkBytes(LongCountUnit())| == SIZE_CHUNK
  {
    var u := LongCountUnit();
    var f := u[OFF_SIZE..OFF_SIZE + LEN_SIZE];
    assert f == [0xB8, 0x0B, 0, 0];
    assert f[1..] == [0x0B, 0, 0];
    assert f[1..][1..] == [0, 0];
    assert f[1..][1..][1..] == [0];
    assert f[1..][1..][1..][1..] == [];
    assert LittleEndian(f[1..][1..][1..]) == 0;
    assert LittleEndian(f[1..][1..]) == 0;
    assert LittleEndian(f[1..]) == 0x0B;
    assert LittleEndian(f) == 0xB8 + 256 * 0x0B;
  }
}

=== FILE: index.dfy ===
/**
 The index builder: one forward scan over the image in whole units, filing
 each valid header unit under `objHeaderMap_` and each valid data unit under
 `dataChunkMap_`, both keyed by object id, then block id.
 */
module Index {
  import opened Layout
  import opened Codec
  import opened Ordered

  /** The two indices the engine keeps between `Build` and `Recover`. */
  datatype SuperBlock = SuperBlock(objHeaderMap: ObjMap, dataChunkMap: ObjMap)

  /** A freshly constructed engine: both indices empty. */
  const Empty: SuperBlock := SuperBlock(map[], map[])

  /** The offsets filed under (o, b), or none when the bucket does not exist. */
  function Bucket(m: ObjMap, o: nat, b: nat): OffsetVector
  {
    if o in m && b in m[o] then m[o][b] else []
  }

  /** Offset x is filed under (o, b). */
  predicate Filed(m: ObjMap, o: nat, b: nat, x: nat)
  {
    x in Bucket(m, o, b)
  }

  /** Every object's BlockMap has only non-empty, increasing buckets. */
  predicate Shaped(m: ObjMap)
  {
    forall o :: o in m ==> WellFormed(m[o])
  }

  /** Resets both indices: no object id is left in either map. */
  function Clear(sb: SuperBlock): (r: SuperBlock)
    ensures |r.objHeaderMap| == 0 && |r.dataChunkMap| == 0
    ensures forall o, b :: Bucket(r.objHeaderMap, o, b) == [] && Bucket(r.dataChunkMap, o, b) == []
  {
    Empty
  }

  /** The unit stored at image offset x. */
  function UnitAt(image: seq<uint8>, x: nat): (u: seq<uint8>)
    requires x + SIZE_UNIT <= |image|
    ensures |u| == SIZE_UNIT
  {
    image[x..x + SIZE_UNIT]
  }

  function BlockId(u: seq<uint8>): nat
    requires |u| == SIZE_UNIT
  {
    Field(u, OFF_BLK_ID, LEN_BLK_ID)
  }

  function ObjId(u: seq<uint8>): nat
    requires |u| == SIZE_UNIT
  {
    Field(u, OFF_OBJ_ID, LEN_OBJ_ID)
  }

  /** What the scan does with one unit. */
  datatype UnitClass = Skip | HeaderUnit(obj: nat, blk: nat) | DataUnit(obj: nat, blk: nat)

  /**
   The scan's decision for one unit: units with block id 0 or 0xFFFFFFFF are
   skipped; a header is filed unless its name is a sentinel; a data unit is
   always filed; every other type tag is ignored.
   */
  function Classify(u: seq<uint8>): (r: UnitClass)
    requires |u| == SIZE_UNIT
    ensures r.HeaderUnit? <==>
      BlockId(u) != BLOCK_ID_UNUSED && BlockId(u) != BLOCK_ID_ERASED
      && u[OFF_OBJ_TYPE] == TYPE_HEADER && !NameIs(u, UNLINKED) && !NameIs(u, DELETED)
    ensures r.DataUnit? <==>
      BlockId(u) != BLOCK_ID_UNUSED && BlockId(u) != BLOCK_ID_ERASED && u[OFF_OBJ_TYPE] == TYPE_DATA
    ensures !r.Skip? ==>
      r.obj == ObjId(u) && r.obj < 0x1_0000
      && r.blk == BlockId(u) && r.blk != BLOCK_ID_UNUSED && r.blk != BLOCK_ID_ERASED
  {
    LittleEndianBound(u[OFF_OBJ_ID..OFF_OBJ_ID + LEN_OBJ_ID]);
    assert Pow256(LEN_OBJ_ID) == 0x1_0000;
    var blk := BlockId(u);
    if blk != BLOCK_ID_UNUSED && blk != BLOCK_ID_ERASED then
      var obj := ObjId(u);
      if u[OFF_OBJ_TYPE] == TYPE_HEADER then
        if !IsUnlinked(u) && !IsDeleted(u) then HeaderUnit(obj, blk) else Skip
      else if u[OFF_OBJ_TYPE] == TYPE_DATA then DataUnit(obj, blk)
      else Skip
    else Skip
  }

  /** The class of the complete unit starting at x; Skip when x starts none. */
  function Entry(image: seq<uint8>, x: nat): UnitClass
  {
    if x % SIZE_UNIT == 0 && x + SIZE_UNIT <= |image| then Classify(UnitAt(image, x)) else Skip
  }

  /** `m[o][b].push_back(x)`, creating the object and the bucket on first use. */
  function Append(m: ObjMap, o: nat, b: nat, x: nat): (r: ObjMap)
    ensures forall o', b' ::
      Bucket(r, o', b') == (if o' == o && b' == b then Bucket(m, o, b) + [x] else Bucket(m, o', b'))
    ensures r.Keys == m.Keys + {o}
    ensures forall o' :: o' in m && o' != o ==> r[o'] == m[o']
    ensures r[o].Keys == (if o in m then m[o].Keys else {}) + {b}
    ensures forall b' :: b' in r[o] && b' != b ==> r[o][b'] == m[o][b']
  {
    var bm: BlockMap := if o in m then m[o] else map[];
    m[o := bm[b := Bucket(m, o, b) + [x]]]
  }

  /** The body of the scan loop for the unit read at offset x. */
  function IndexUnit(sb: SuperBlock, u: seq<uint8>, x: nat): SuperBlock
    requires |u| == SIZE_UNIT
  {
    match Classify(u)
    case HeaderUnit(o, b) => sb.(objHeaderMap := Append(sb.objHeaderMap, o, b, x))
    case DataUnit(o, b) => sb.(dataChunkMap := Append(sb.dataChunkMap, o, b, x))
    case Skip => sb
  }

  /** The scan loop from offset x on: stops at the first short read. */
  function Scan(sb: SuperBlock, image: seq<uint8>, x: nat): SuperBlock
    decreases |image| - x
  {
    if x + SIZE_UNIT <= |image| then Scan(IndexUnit(sb, UnitAt(image, x), x), image, x + SIZE_UNIT)
    else sb
  }

  /**
   Rewinds the image and scans it all, adding to whatever the indices hold:
   `Build` never clears, so every bucket it started with is a prefix of the
   bucket it leaves.
   */
  function Build(sb: SuperBlock, image: seq<uint8>): (r: SuperBlock)
    ensures forall o, b :: Bucket(sb.objHeaderMap, o, b) <= Bucket(r.objHeaderMap, o, b)
    ensures forall o, b :: Bucket(sb.dataChunkMap, o, b) <= Bucket(r.dataChunkMap, o, b)
  {
    ScanExtends(sb, image, 0);
    Scan(sb, image, 0)
  }

  /** The scan only appends: each bucket grows at its back. */
  lemma {:induction false} ScanExtends(sb: SuperBlock, image: seq<uint8>, x: nat)
    ensures var r := Scan(sb, image, x);
      && (forall o, b :: Bucket(sb.objHeaderMap, o, b) <= Bucket(r.objHeaderMap, o, b))
      && (forall o, b :: Bucket(sb.dataChunkMap, o, b) <= Bucket(r.dataChunkMap, o, b))
    decreases |image| - x
  {
    if x + SIZE_UNIT <= |image| {
      var next := IndexUnit(sb, UnitAt(image, x), x);
      ScanExtends(next, image, x + SIZE_UNIT);
      var r := Scan(sb, image, x);
      forall o, b
        ensures Bucket(sb.objHeaderMap, o, b) <= Bucket(r.objHeaderMap, o, b)
        ensures Bucket(sb.dataChunkMap, o, b) <= Bucket(r.dataChunkMap, o, b)
      {
        assert Bucket(sb.objHeaderMap, o, b) <= Bucket(next.objHeaderMap, o, b);
        assert Bucket(sb.dataChunkMap, o, b) <= Bucket(next.dataChunkMap, o, b);
      }
    }
  }

  /** The class under which a map of the given kind files a unit at (o, b). */
  function Tag(headers: bool, o: nat, b: nat): UnitClass
  {
    if headers then HeaderUnit(o, b) else DataUnit(o, b)
  }

  /** A map of the given kind files units of class c. */
  predicate Files(headers: bool, c: UnitClass)
  {
    if headers then c.HeaderUnit? else c.DataUnit?
  }

  /** `m` files exactly the units below `upto` that the scan files as headers (or data). */
  ghost predicate Indexes(m: ObjMap, image: seq<uint8>, upto: nat, headers: bool)
  {
    && (forall o: nat, b: nat, x: nat :: Filed(m, o, b, x) ==> x < upto && Entry(image, x) == Tag(headers, o, b))
    && (forall x: nat :: x < upto && Files(headers, Entry(image, x)) ==>
          Filed(m, Entry(image, x).obj, Entry(image, x).blk, x))
  }

  /** The scan invariant after all units below `upto` have been read. */
  ghost predicate ScanInv(sb: SuperBlock, image: seq<uint8>, upto: nat)
  {
    && Indexes(sb.objHeaderMap, image, upto, true)
    && Indexes(sb.dataChunkMap, image, upto, false)
    && (forall o, b :: Increasing(Bucket(sb.objHeaderMap, o, b)))
    && (forall o, b :: Increasing(Bucket(sb.dataChunkMap, o, b)))
    && (forall o, b :: o in sb.objHeaderMap && b in sb.objHeaderMap[o] ==> |sb.objHeaderMap[o][b]| > 0)
    && (forall o, b :: o in sb.dataChunkMap && b in sb.dataChunkMap[o] ==> |sb.dataChunkMap[o][b]| > 0)
  }

  /** Two unit starts closer than a unit apart are equal. */
  lemma UnitStartsApart(x: nat, y: nat)
    requires x % SIZE_UNIT == 0 && y % SIZE_UNIT == 0
    requires y <= x < y + SIZE_UNIT
    ensures x == y
  {
    var q := x / SIZE_UNIT;
    var p := y / SIZE_UNIT;
    assert x == q * SIZE_UNIT && y == p * SIZE_UNIT;
  }

  /** Appending a scan offset above every filed one keeps the map's shape. */
  lemma AppendKeepsShape(m: ObjMap, o: nat, b: nat, x: nat)
    requires forall o', b' :: Increasing(Bucket(m, o', b'))
    requires forall o': nat, b': nat, y: nat :: Filed(m, o', b', y) ==> y < x
    requires forall o', b' :: o' in m && b' in m[o'] ==> |m[o'][b']| > 0
    ensures forall o', b' :: Increasing(Bucket(Append(m, o, b, x), o', b'))
    ensures forall o', b' :: o' in Append(m, o, b, x) && b' in Append(m, o, b, x)[o'] ==>
      |Append(m, o, b, x)[o'][b']| > 0
  {
    var r := Append(m, o, b, x);
    forall o', b' ensures Increasing(Bucket(r, o', b'))
    {
      if o' == o && b' == b {
        var v := Bucket(m, o, b);
        forall i, j | 0 <= i < j < |v| + 1
          ensures (v + [x])[i] < (v + [x])[j]
        {
          if j == |v| {
            assert Filed(m, o, b, v[i]);
          }
        }
      }
    }
    forall o', b' | o' in r && b' in r[o']
      ensures |r[o'][b']| > 0
    {
      if o' == o && b' == b {
        assert Bucket(r, o, b) == r[o][b];
      } else {
        assert Bucket(r, o', b') == Bucket(m, o', b');
        assert o' in m && b' in m[o'];
      }
    }
  }

  /** Moving the bound across offsets that start no unit of this kind changes nothing. */
  lemma IndexesRebound(m: ObjMap, image: seq<uint8>, upto: nat, upto': nat, headers: bool)
    requires Indexes(m, image, upto, headers)
    requires forall x: nat :: (upto <= x < upto' || upto' <= x < upto) ==> !Files(headers, Entry(image, x))
    ensures Indexes(m, image, upto', headers)
  {
    forall o: nat, b: nat, x: nat | Filed(m, o, b, x)
      ensures x < upto' && Entry(image, x) == Tag(headers, o, b)
    {
      assert x < upto && Entry(image, x) == Tag(headers, o, b);
      assert Files(headers, Entry(image, x));
      assert !(upto' <= x < upto);
    }
    forall x: nat | x < upto' && Files(headers, Entry(image, x))
      ensures Filed(m, Entry(image, x).obj, Entry(image, x).blk, x)
    {
      assert x < upto;
    }
  }

  /** Filing the unit at `upto` under its own (object, block) extends the index by one unit. */
  lemma IndexesAppend(m: ObjMap, image: seq<uint8>, upto: nat, headers: bool, o: nat, b: nat)
    requires Indexes(m, image, upto, headers)
    requires Entry(image, upto) == Tag(headers, o, b)
    requires forall x: nat :: upto < x < upto + SIZE_UNIT ==> Entry(image, x) == Skip
    ensures Indexes(Append(m, o, b, upto), image, upto + SIZE_UNIT, headers)
  {
    var r := Append(m, o, b, upto);
    forall o': nat, b': nat, x: nat | Filed(r, o', b', x)
      ensures x < upto + SIZE_UNIT && Entry(image, x) == Tag(headers, o', b')
    {
      if x != upto || o' != o || b' != b {
        assert Filed(m, o', b', x);
      }
    }
    forall x: nat | x < upto + SIZE_UNIT && Files(headers, Entry(image, x))
      ensures Filed(r, Entry(image, x).obj, Entry(image, x).blk, x)
    {
      if x < upto {
        assert Filed(m, Entry(image, x).obj, Entry(image, x).blk, x);
      } else {
        assert x == upto;
      }
    }
  }

  /** Filing the unit at `upto` extends the invariant by one unit. */
  lemma ScanStep(sb: SuperBlock, image: seq<uint8>, upto: nat)
    requires upto % SIZE_UNIT == 0 && upto + SIZE_UNIT <= |image|
    requires ScanInv(sb, image, upto)
    ensures ScanInv(IndexUnit(sb, UnitAt(image, upto), upto), image, upto + SIZE_UNIT)
  {
    var c := Classify(UnitAt(image, upto));
    assert Entry(image, upto) == c;
    NoStartInside(image, upto);
    match c
    case HeaderUnit(o, b) => ScanFilesHeader(sb, image, upto, o, b);
    case DataUnit(o, b) => ScanFilesData(sb, image, upto, o, b);
    case Skip =>
      IndexesRebound(sb.objHeaderMap, image, upto, upto + SIZE_UNIT, true);
      IndexesRebound(sb.dataChunkMap, image, upto, upto + SIZE_UNIT, false);
  }

  /** No unit starts strictly inside the unit at `upto`. */
  lemma NoStartInside(image: seq<uint8>, upto: nat)
    requires upto % SIZE_UNIT == 0
    ensures forall x: nat :: upto < x < upto + SIZE_UNIT ==> Entry(image, x) == Skip
  {
    forall x: nat | upto < x < upto + SIZE_UNIT
      ensures Entry(image, x) == Skip
    {
      if x % SIZE_UNIT == 0 {
        UnitStartsApart(x, upto);
      }
    }
  }

  lemma ScanFilesHeader(sb: SuperBlock, image: seq<uint8>, upto: nat, o: nat, b: nat)
    requires upto % SIZE_UNIT == 0 && upto + SIZE_UNIT <= |image|
    requires ScanInv(sb, image, upto)
    requires Entry(image, upto) == HeaderUnit(o, b)
    requires forall x: nat :: upto < x < upto + SIZE_UNIT ==> Entry(image, x) == Skip
    ensures ScanInv(sb.(objHeaderMap := Append(sb.objHeaderMap, o, b, upto)), image, upto + SIZE_UNIT)
  {
    assert forall o: nat, b: nat, y: nat :: Filed(sb.objHeaderMap, o, b, y) ==> y < upto;
    AppendKeepsShape(sb.objHeaderMap, o, b, upto);
    IndexesAppend(sb.objHeaderMap, image, upto, true, o, b);
    IndexesRebound(sb.dataChunkMap, image, upto, upto + SIZE_UNIT, false);
  }

  lemma ScanFilesData(sb: SuperBlock, image: seq<uint8>, upto: nat, o: nat, b: nat)
    requires upto % SIZE_UNIT == 0 && upto + SIZE_UNIT <= |image|
    requires ScanInv(sb, image, upto)
    requires Entry(image, upto) == DataUnit(o, b)
    requires forall x: nat :: upto < x < upto + SIZE_UNIT ==> Entry(image, x) == Skip
    ensures ScanInv(sb.(dataChunkMap := Append(sb.dataChunkMap, o, b, upto)), image, upto + SIZE_UNIT)
  {
    assert forall o: nat, b: nat, y: nat :: Filed(sb.dataChunkMap, o, b, y) ==> y < upto;
    AppendKeepsShape(sb.dataChunkMap, o, b, upto);
    IndexesAppend(sb.dataChunkMap, image, upto, false, o, b);
    IndexesRebound(sb.objHeaderMap, image, upto, upto + SIZE_UNIT, true);
  }

  /** The whole scan from a state satisfying the invariant. */
  lemma {:induction false} ScanAll(sb: SuperBlock, image: seq<uint8>, upto: nat)
    requires upto % SIZE_UNIT == 0
    requires ScanInv(sb, image, upto)
    ensures ScanInv(Scan(sb, image, upto), image, |image|)
    decreases |image| - upto
  {
    if upto + SIZE_UNIT <= |image| {
      ScanStep(sb, image, upto);
      ScanAll(IndexUnit(sb, UnitAt(image, upto), upto), image, upto + SIZE_UNIT);
    } else {
      forall x: nat | upto <= x < |image| || |image| <= x < upto
        ensures Entry(image, x) == Skip
      {
        if x % SIZE_UNIT == 0 && x + SIZE_UNIT <= |image| {
          UnitStartsApart(x, upto);
        }
      }
      IndexesRebound(sb.objHeaderMap, image, upto, |image|, true);
      IndexesRebound(sb.dataChunkMap, image, upto, |image|, false);
    }
  }

  /**
   Building from cleared indices files every header unit that passes the
   scan's tests, and nothing else, under (its object id, its block id); the
   same for data units. Buckets are non-empty and strictly increasing.
   */
  lemma BuildIndexesImage(sb: SuperBlock, image: seq<uint8>)
    ensures var r := Build(Clear(sb), image);
      && (forall o: nat, b: nat, x: nat :: Filed(r.objHeaderMap, o, b, x) <==> Entry(image, x) == HeaderUnit(o, b))
      && (forall o: nat, b: nat, x: nat :: Filed(r.dataChunkMap, o, b, x) <==> Entry(image, x) == DataUnit(o, b))
      && (forall o, b :: Increasing(Bucket(r.objHeaderMap, o, b)))
      && Shaped(r.objHeaderMap) && Shaped(r.dataChunkMap)
  {
    var r := Build(Clear(sb), image);
    ScanAll(Empty, image, 0);
    IndexesWholeImage(r.objHeaderMap, image, true);
    IndexesWholeImage(r.dataChunkMap, image, false);
    BucketsShaped(r.objHeaderMap);
    BucketsShaped(r.dataChunkMap);
  }

  /** An index of the whole image files x under (o, b) exactly when x classifies so. */
  lemma IndexesWholeImage(m: ObjMap, image: seq<uint8>, headers: bool)
    requires Indexes(m, image, |image|, headers)
    ensures forall o: nat, b: nat, x: nat :: Filed(m, o, b, x) <==> Entry(image, x) == Tag(headers, o, b)
  {
    forall x: nat | Entry(image, x) != Skip
      ensures x < |image|
    {
    }
  }

  /** Non-empty, increasing buckets make every BlockMap well-formed. */
  lemma BucketsShaped(m: ObjMap)
    requires forall o, b :: Increasing(Bucket(m, o, b))
    requires forall o, b :: o in m && b in m[o] ==> |m[o][b]| > 0
    ensures Shaped(m)
  {
    forall o | o in m
      ensures WellFormed(m[o])
    {
      forall b | b in m[o]
        ensures Increasing(m[o][b])
      {
        assert Bucket(m, o, b) == m[o][b];
      }
    }
  }

  /**
   Every offset the build files starts a whole unit (a multiple of
   SIZE_UNIT with SIZE_UNIT bytes after it, so a trailing partial unit is
   never filed), with a valid block id, and no offset is in both indices.
   */
  lemma BuildLayout(sb: SuperBlock, image: seq<uint8>)
    ensures var r := Build(Clear(sb), image);
      && (forall o: nat, b: nat, x: nat :: Filed(r.objHeaderMap, o, b, x) || Filed(r.dataChunkMap, o, b, x) ==>
            x % SIZE_UNIT == 0 && x + SIZE_UNIT <= |image| && b != BLOCK_ID_UNUSED && b != BLOCK_ID_ERASED
            && o < 0x1_0000)
      && (forall o1: nat, b1: nat, o2: nat, b2: nat, x: nat ::
            Filed(r.objHeaderMap, o1, b1, x) ==> !Filed(r.dataChunkMap, o2, b2, x))
  {
    BuildIndexesImage(sb, image);
  }
}

=== FILE: layout.dfy ===
/**
 On-NAND geometry of a YAFFS2 image as the recovery tool reads it: every
 storage unit is one 2048-byte chunk followed by its 64-byte out-of-band
 (OOB) tag area. This module holds the unit geometry, the byte offsets and
 widths of the fields the tool decodes, the object type tags, the sentinel
 names, and the nested index types.
 */
module Layout {

  /** One byte of the image. */
  newtype uint8 = x: int | 0 <= x < 256

  /** Status codes returned by the engine's entry points. */
  const YAFFS2_OK: int := 0
  const YAFFS2_FAILURE: int := -1

  /** A unit is a chunk plus its OOB area. */
  const SIZE_CHUNK: nat := 0x800
  const SIZE_OOB: nat := 0x40
  const SIZE_UNIT: nat := SIZE_CHUNK + SIZE_OOB

  /** Byte offsets of the decoded fields, relative to the start of a unit. */
  const OFF_OBJ_TYPE: nat := SIZE_CHUNK + 0x07
  const OFF_OBJ_ID: nat := SIZE_CHUNK + 0x04
  const OFF_NAME: nat := 0x0A
  const OFF_SIZE: nat := SIZE_CHUNK + 0x0C
  const OFF_BLK_ID: nat := SIZE_CHUNK
  const OFF_CHK_ID: nat := SIZE_CHUNK + 0x08
  const OFF_MTIME: nat := 0x120

  /** Widths in bytes of the decoded fields. */
  const LEN_OBJ_TYPE: nat := 1
  const LEN_OBJ_ID: nat := 2
  const LEN_NAME: nat := 255
  const LEN_SIZE: nat := 4
  const LEN_BLK_ID: nat := 4
  const LEN_CHK_ID: nat := 4
  const LEN_MTIME: nat := 4

  /** The six object type tags stored in the OOB type byte. */
  const TYPE_DATA: uint8 := 0x00
  const TYPE_HEADER: uint8 := 0x10
  const TYPE_SIMLINK: uint8 := 0x20
  const TYPE_DIR: uint8 := 0x30
  const TYPE_HARDLINK: uint8 := 0x40
  const TYPE_SPECIAL: uint8 := 0x50

  /** Block ids that mark a unit as unwritten or invalid. */
  const BLOCK_ID_UNUSED: nat := 0
  const BLOCK_ID_ERASED: nat := 0xFFFF_FFFF

  /** The bytes of an ASCII string literal. */
  function Ascii(s: string): (r: seq<uint8>)
    requires forall i :: 0 <= i < |s| ==> s[i] as int < 256
    ensures |r| == |s|
    ensures forall i :: 0 <= i < |s| ==> r[i] as int == s[i] as int
  {
    seq(|s|, i requires 0 <= i < |s| => s[i] as int as uint8)
  }

  /** The sentinel names of unlinked and deleted objects, without their NUL. */
  const UNLINKED: seq<uint8> := Ascii("unlinked")
  const DELETED: seq<uint8> := Ascii("deleted")

  /** The C arrays `UNLINKED[]` and `DELETED[]`: the names followed by NUL. */
  const UNLINKED_C: seq<uint8> := UNLINKED + [0]
  const DELETED_C: seq<uint8> := DELETED + [0]

  /** Image offsets of the units that share one (object, block) pair, in scan order. */
  type OffsetVector = seq<nat>
  /** Block id -> offsets. */
  type BlockMap = map<nat, OffsetVector>
  /** Object id -> block id -> offsets (both the header and the data index). */
  type ObjMap = map<nat, BlockMap>

  /** A unit occupies 2112 bytes. */
  lemma UnitSize()
    ensures SIZE_UNIT == 2112
    ensures SIZE_UNIT == SIZE_CHUNK + SIZE_OOB
  {
  }

  /** Every OOB field decoded lies wholly inside the OOB area of the unit. */
  lemma OobFieldsInsideUnit()
    ensures SIZE_CHUNK <= OFF_BLK_ID && OFF_BLK_ID + LEN_BLK_ID <= SIZE_UNIT
    ensures SIZE_CHUNK <= OFF_OBJ_ID && OFF_OBJ_ID + LEN_OBJ_ID <= SIZE_UNIT
    ensures SIZE_CHUNK <= OFF_CHK_ID && OFF_CHK_ID + LEN_CHK_ID <= SIZE_UNIT
    ensures SIZE_CHUNK <= OFF_SIZE && OFF_SIZE + LEN_SIZE <= SIZE_UNIT
    ensures SIZE_CHUNK <= OFF_OBJ_TYPE && OFF_OBJ_TYPE + LEN_OBJ_TYPE <= SIZE_UNIT
  {
  }

  /** The name and mtime fields lie in the chunk area and do not overlap. */
  lemma HeaderFieldsInsideChunk()
    ensures OFF_NAME + LEN_NAME <= OFF_MTIME
    ensures OFF_MTIME + LEN_MTIME <= SIZE_CHUNK
  {
  }

  /** The type byte is not part of the two-byte object id, nor of the block id. */
  lemma TypeByteOutsideIds()
    ensures OFF_OBJ_TYPE !in {OFF_OBJ_ID, OFF_OBJ_ID + 1}
    ensures !(OFF_BLK_ID <= OFF_OBJ_TYPE < OFF_BLK_ID + LEN_BLK_ID)
  {
  }

  /** The six type tags are pairwise distinct. */
  lemma TypeTagsDistinct()
    ensures |{TYPE_DATA, TYPE_HEADER, TYPE_SIMLINK, TYPE_DIR, TYPE_HARDLINK, TYPE_SPECIAL}| == 6
    ensures TYPE_HEADER != TYPE_DATA
  {
  }

  /** Neither sentinel contains a NUL, and neither is a prefix of the other's C array. */
  lemma SentinelsShape()
    ensures |UNLINKED| == 8 && |DELETED| == 7
    ensures 0 !in UNLINKED && 0 !in DELETED
    ensures UNLINKED_C[..|DELETED_C|] != DELETED_C
    ensures |UNLINKED_C| + OFF_NAME <= OFF_NAME + LEN_NAME
  {
  }
}

=== FILE: ordered.dfy ===
/**
 Reverse traversal of the ordered maps. A `std::map` is iterated from
 `rbegin()` to `rend()`, that is by descending key; an offset vector is
 iterated from its back. The newest-first chain of a BlockMap lists its
 (block, offset) slots in exactly the order the source's nested reverse
 loops visit them.
 */
module Ordered {
  import opened Layout

  /** The largest element of a non-empty finite set of naturals. */
  function MaxOf(s: set<nat>): (m: nat)
    requires s != {}
    ensures m in s
    ensures forall x :: x in s ==> x <= m
  {
    MaxExists(s);
    var m :| m in s && forall x :: x in s ==> x <= m; m
  }

  lemma MaxExists(s: set<nat>)
    requires s != {}
    ensures exists m :: m in s && forall x :: x in s ==> x <= m
  {
    var m := MaxWitness(s);
  }

  /** A largest element, found by removing elements one at a time. */
  lemma MaxWitness(s: set<nat>) returns (m: nat)
    requires s != {}
    ensures m in s && forall x :: x in s ==> x <= m
    decreases s
  {
    var y :| y in s;
    var s' := s - {y};
    if s' == {} {
      m := y;
      assert s == {y};
    } else {
      var m' := MaxWitness(s');
      m := if y > m' then y else m';
      forall x | x in s
        ensures x <= m
      {
        if x != y {
          assert x in s';
        }
      }
    }
  }

  /** The map without key k (`erase(k)`). */
  function Without<V>(m: map<nat, V>, k: nat): (r: map<nat, V>)
    requires k in m
    ensures r.Keys == m.Keys - {k}
    ensures |r| == |m| - 1
    ensures forall x :: x in r ==> r[x] == m[x]
  {
    var r := map x | x in m && x != k :: m[x];
    assert r.Keys == m.Keys - {k};
    r
  }

  /** One offset together with the block it is filed under. */
  datatype Slot = Slot(blk: nat, off: nat)

  /** `s` is newer than `t`: a larger block id, or the same block and a larger offset. */
  predicate Newer(s: Slot, t: Slot)
  {
    s.blk > t.blk || (s.blk == t.blk && s.off > t.off)
  }

  /** The slots of one bucket, from the back of the vector to its front. */
  function Newest(k: nat, v: OffsetVector): (r: seq<Slot>)
    ensures |r| == |v|
    ensures forall i :: 0 <= i < |v| ==> r[i] == Slot(k, v[|v| - 1 - i])
  {
    seq(|v|, i requires 0 <= i < |v| => Slot(k, v[|v| - 1 - i]))
  }

  /** Every slot of a BlockMap: buckets by descending block id, each from its back. */
  function Chain(bm: BlockMap): seq<Slot>
    decreases |bm|
  {
    if |bm| == 0 then []
    else
      var k := MaxOf(bm.Keys);
      Newest(k, bm[k]) + Chain(Without(bm, k))
  }

  /** The offsets of a run of slots. */
  function Offs(s: seq<Slot>): (r: seq<nat>)
    ensures |r| == |s|
    ensures forall i :: 0 <= i < |s| ==> r[i] == s[i].off
  {
    seq(|s|, i requires 0 <= i < |s| => s[i].off)
  }

  /** The offsets of a BlockMap in newest-first order: its payload pool. */
  function Pool(bm: BlockMap): seq<nat>
  {
    Offs(Chain(bm))
  }

  /** A sequence with no repeated element. */
  predicate Distinct(s: seq<nat>)
  {
    forall i, j :: 0 <= i < j < |s| ==> s[i] != s[j]
  }

  /** Offsets strictly increase along the vector, as scan order produces them. */
  predicate Increasing(v: OffsetVector)
  {
    forall i, j :: 0 <= i < j < |v| ==> v[i] < v[j]
  }

  /** Every bucket is non-empty and strictly increasing. */
  predicate WellFormed(bm: BlockMap)
  {
    forall k :: k in bm ==> |bm[k]| > 0 && Increasing(bm[k])
  }

  /** `a` keeps some of `b`'s blocks, each with a front part of its bucket. */
  predicate Sub(a: BlockMap, b: BlockMap)
  {
    forall k :: k in a ==> k in b && |a[k]| <= |b[k]| && a[k] == b[k][..|a[k]|]
  }

  /** Replacing the bucket of the largest key only changes the head of the chain. */
  lemma ChainOfUpdatedMax(bm: BlockMap, k: nat, w: OffsetVector)
    requires k in bm && k == MaxOf(bm.Keys)
    ensures Chain(bm[k := w]) == Newest(k, w) + Chain(Without(bm, k))
  {
    var bm' := bm[k := w];
    assert bm'.Keys == bm.Keys;
    assert Without(bm', k) == Without(bm, k);
  }

  /** Every slot of the chain is a (block, offset) pair of the map. */
  lemma {:induction false} ChainMembers(bm: BlockMap)
    ensures forall i :: 0 <= i < |Chain(bm)| ==>
      Chain(bm)[i].blk in bm && Chain(bm)[i].off in bm[Chain(bm)[i].blk]
    decreases |bm|
  {
    if |bm| > 0 {
      var k := MaxOf(bm.Keys);
      var rest := Without(bm, k);
      ChainMembers(rest);
      var c := Chain(bm);
      assert c == Newest(k, bm[k]) + Chain(rest);
      forall i | 0 <= i < |c|
        ensures c[i].blk in bm && c[i].off in bm[c[i].blk]
      {
        if i >= |bm[k]| {
          assert c[i] == Chain(rest)[i - |bm[k]|];
        }
      }
    }
  }

  /** Every (block, offset) pair of the map is a slot of the chain. */
  lemma {:induction false} ChainCovers(bm: BlockMap, k: nat, j: nat)
    requires k in bm && j < |bm[k]|
    ensures Slot(k, bm[k][j]) in Chain(bm)
    decreases |bm|
  {
    var m := MaxOf(bm.Keys);
    var v := bm[m];
    if k == m {
      assert Newest(m, v)[|v| - 1 - j] == Slot(k, bm[k][j]);
    } else {
      ChainCovers(Without(bm, m), k, j);
    }
  }

  /** The chain of a well-formed map is strictly newest-first. */
  lemma {:induction false} ChainNewestFirst(bm: BlockMap)
    requires WellFormed(bm)
    ensures forall i, j :: 0 <= i < j < |Chain(bm)| ==> Newer(Chain(bm)[i], Chain(bm)[j])
    decreases |bm|
  {
    if |bm| > 0 {
      var k := MaxOf(bm.Keys);
      var rest := Without(bm, k);
      ChainNewestFirst(rest);
      ChainMembers(rest);
      var h := Newest(k, bm[k]);
      var c := Chain(bm);
      assert c == h + Chain(rest);
      forall i, j | 0 <= i < j < |c|
        ensures Newer(c[i], c[j])
      {
        if j < |h| {
          assert c[i] == h[i] && c[j] == h[j];
        } else if i < |h| {
          assert c[j] == Chain(rest)[j - |h|];
          assert c[j].blk in rest;
        } else {
          assert c[i] == Chain(rest)[i - |h|] && c[j] == Chain(rest)[j - |h|];
        }
      }
    }
  }

  /** In a map where an offset determines its block, the pool has no repeats. */
  lemma PoolDistinct(bm: BlockMap)
    requires WellFormed(bm)
    requires forall k1, k2, x :: k1 in bm && k2 in bm && x in bm[k1] && x in bm[k2] ==> k1 == k2
    ensures Distinct(Pool(bm))
  {
    var c := Chain(bm);
    ChainNewestFirst(bm);
    ChainMembers(bm);
    forall i, j | 0 <= i < j < |c|
      ensures c[i].off != c[j].off
    {
      assert Newer(c[i], c[j]);
    }
  }

  /** A front part of an increasing vector is increasing. */
  lemma SubKeepsWellFormed(a: BlockMap, b: BlockMap)
    requires Sub(a, b) && WellFormed(b)
    requires forall k :: k in a ==> |a[k]| > 0
    ensures WellFormed(a)
  {
    forall k | k in a
      ensures Increasing(a[k])
    {
      forall i, j | 0 <= i < j < |a[k]|
        ensures a[k][i] < a[k][j]
      {
        assert a[k][i] == b[k][i] && a[k][j] == b[k][j];
      }
    }
  }
}

=== FILE: pass.dfy ===
/**
 The reverse pass as a whole: the payload pool only shrinks, every file
 receives chunks of its own object that were still in the pool, and no
 chunk offset is written to two files.
 */
module PassFacts {
  import opened Layout
  import opened Codec
  import opened Ordered
  import opened Index
  import opened Recovery
  import opened PeelFacts

  /** Two runs of offsets share no element. */
  predicate Disjoint(a: seq<nat>, b: seq<nat>)
  {
    forall x :: x in a ==> x !in b
  }

  /** Each object's payload pool, newest first. */
  function PoolsOf(d: ObjMap): (p: map<nat, seq<nat>>)
    ensures p.Keys == d.Keys
    ensures forall o :: o in d ==> p[o] == Pool(d[o])
  {
    map o | o in d :: Pool(d[o])
  }

  /** Each pool has no repeats, and pools of different objects share none. */
  ghost predicate Separated(p: map<nat, seq<nat>>)
  {
    && (forall o :: o in p ==> Distinct(p[o]))
    && (forall o1, o2 :: o1 in p && o2 in p && o1 != o2 ==> Disjoint(p[o1], p[o2]))
  }

  /**
   Output e was cut from the initial pool p0 of its object: its chunks are
   distinct, at least one, all from that pool and none still in the current
   pool p.
   */
  ghost predicate Written(p0: map<nat, seq<nat>>, p: map<nat, seq<nat>>, e: Output)
  {
    && e.obj in p0 && e.obj in p
    && |e.chunks| > 0
    && Distinct(e.chunks)
    && (forall x :: x in e.chunks ==> x in p0[e.obj] && x !in p[e.obj])
  }

  /**
   The log invariant relative to the initial pools p0: the same objects,
   each pool a final part of its initial pool, every file written from it,
   and no two files sharing a chunk.
   */
  ghost predicate LogInv(p0: map<nat, seq<nat>>, p: map<nat, seq<nat>>, log: seq<Output>)
  {
    && p.Keys == p0.Keys
    && (forall o :: o in p ==> IsSuffix(p[o], p0[o]))
    && (forall i :: 0 <= i < |log| ==> Written(p0, p, log[i]))
    && (forall i, j :: 0 <= i < j < |log| ==> Disjoint(log[i].chunks, log[j].chunks))
  }

  /** The pass invariant: well-formed BlockMaps and the log invariant on their pools. */
  ghost predicate PassInv(d0: ObjMap, st: Pass)
  {
    && st.data.Keys == d0.Keys
    && Shaped(st.data)
    && LogInv(PoolsOf(d0), PoolsOf(st.data), st.log)
  }

  lemma SuffixMembers(a: seq<nat>, b: seq<nat>)
    requires IsSuffix(a, b)
    ensures forall x :: x in a ==> x in b
  {
    forall x | x in a
      ensures x in b
    {
      var i :| 0 <= i < |a| && a[i] == x;
      assert b[|b| - |a| + i] == x;
    }
  }

  lemma SuffixDistinct(a: seq<nat>, b: seq<nat>)
    requires IsSuffix(a, b) && Distinct(b)
    ensures Distinct(a)
  {
    forall i, j | 0 <= i < j < |a|
      ensures a[i] != a[j]
    {
      assert a[i] == b[|b| - |a| + i] && a[j] == b[|b| - |a| + j];
    }
  }

  lemma SuffixTrans(a: seq<nat>, b: seq<nat>, c: seq<nat>)
    requires IsSuffix(a, b) && IsSuffix(b, c)
    ensures IsSuffix(a, c)
  {
  }

  /** In a run without repeats, the front part and the back part share nothing. */
  lemma SplitDisjoint(p: seq<nat>, w: nat)
    requires Distinct(p) && w <= |p|
    ensures Disjoint(p[..w], p[w..])
  {
    forall x | x in p[..w]
      ensures x !in p[w..]
    {
      var i :| 0 <= i < w && p[i] == x;
      forall j | 0 <= j < |p| - w
        ensures p[w..][j] != x
      {
        assert p[w..][j] == p[w + j];
      }
    }
  }

  /** Reversing keeps the elements and their distinctness. */
  lemma ReverseMembers(s: seq<nat>)
    ensures forall x :: x in Reverse(s) <==> x in s
    ensures Distinct(s) ==> Distinct(Reverse(s))
  {
    var r := Reverse(s);
    forall x | x in s
      ensures x in r
    {
      var i :| 0 <= i < |s| && s[i] == x;
      assert r[|s| - 1 - i] == x;
    }
  }

  /** What one successful `recover` does to a pool that satisfies the invariant. */
  lemma CutFacts(mode: Mode, name: seq<uint8>, n: nat, bm: BlockMap, p0: seq<nat>,
                 opens: seq<uint8> -> bool)
    requires n > 0 && |bm| > 0 && WellFormed(bm) && opens(name)
    requires IsSuffix(Pool(bm), p0) && Distinct(p0)
    ensures var f := RecoverFile(mode, name, n, bm, opens);
      && IsSuffix(Pool(f.rest), p0)
      && WellFormed(f.rest)
      && |f.written| > 0
      && Distinct(f.written)
      && (forall x :: x in f.written ==> x in Pool(bm) && x !in Pool(f.rest))
      && (forall x :: x in Pool(f.rest) ==> x in Pool(bm))
  {
    var f := RecoverFile(mode, name, n, bm, opens);
    var p := Pool(bm);
    RecoverFileSpec(mode, name, n, bm, opens);
    RestShape(mode, bm, n);
    PoolNonEmpty(bm);
    var w := |f.written|;
    SuffixDistinct(p, p0);
    SuffixTrans(p[w..], p, p0);
    SuffixTrans(Pool(f.rest), p[w..], p0);
    SuffixMembers(Pool(f.rest), p[w..]);
    SuffixMembers(p[w..], p);
    SplitDisjoint(p, w);
    ReverseMembers(p[..w]);
    SuffixDistinct(p[..w], p[..w]);
    assert Distinct(p[..w]);
  }

  /** Cutting one file from object o's pool keeps the invariant. */
  lemma CutKeepsInv(mode: Mode, d0: ObjMap, st: Pass, o: nat, name: seq<uint8>, n: nat,
                    opens: seq<uint8> -> bool)
    requires Separated(PoolsOf(d0)) && PassInv(d0, st)
    requires o in st.data && |st.data[o]| > 0 && n > 0 && opens(name)
    ensures var f := RecoverFile(mode, name, n, st.data[o], opens);
      PassInv(d0, Pass(st.data[o := f.rest], st.log + [Output(name, o, f.written)]))
  {
    var f := RecoverFile(mode, name, n, st.data[o], opens);
    var p := PoolsOf(st.data);
    CutFacts(mode, name, n, st.data[o], PoolsOf(d0)[o], opens);
    ExtendKeepsInv(PoolsOf(d0), p, st.log, Output(name, o, f.written), Pool(f.rest));
    PoolsOfUpdate(st.data, o, f.rest);
  }

  lemma PoolsOfUpdate(d: ObjMap, o: nat, bm: BlockMap)
    ensures PoolsOf(d[o := bm]) == PoolsOf(d)[o := Pool(bm)]
  {
  }

  /**
   Replacing object e.obj's pool by q and logging e keeps the log invariant
   when e's chunks come from the current pool and q keeps none of them.
   */
  lemma ExtendKeepsInv(p0: map<nat, seq<nat>>, p: map<nat, seq<nat>>, log: seq<Output>,
                       e: Output, q: seq<nat>)
    requires Separated(p0) && LogInv(p0, p, log)
    requires e.obj in p
    requires IsSuffix(q, p0[e.obj])
    requires |e.chunks| > 0 && Distinct(e.chunks)
    requires forall x :: x in e.chunks ==> x in p[e.obj] && x !in q
    requires forall x :: x in q ==> x in p[e.obj]
    ensures LogInv(p0, p[e.obj := q], log + [e])
  {
    var o := e.obj;
    var p' := p[o := q];
    var log' := log + [e];
    SuffixMembers(p[o], p0[o]);
    forall i | 0 <= i < |log'|
      ensures Written(p0, p', log'[i])
    {
      if i < |log| {
        assert log'[i] == log[i];
        assert Written(p0, p, log[i]);
      }
    }
    forall i | 0 <= i < |log|
      ensures Disjoint(log[i].chunks, e.chunks)
    {
      var g := log[i];
      assert Written(p0, p, g);
      if g.obj != o {
        assert Disjoint(p0[g.obj], p0[o]);
      }
    }
    forall i, j | 0 <= i < j < |log'|
      ensures Disjoint(log'[i].chunks, log'[j].chunks)
    {
      assert log'[i] == log[i];
      if j < |log| {
        assert log'[j] == log[j];
      }
    }
  }

  /** One visit keeps the invariant. */
  lemma VisitKeepsInv(mode: Mode, image: seq<uint8>, opens: seq<uint8> -> bool,
                      stamp: nat -> seq<uint8>, d0: ObjMap, st: Pass, occ: Occurrence)
    requires occ.off + SIZE_UNIT <= |image|
    requires Separated(PoolsOf(d0)) && PassInv(d0, st)
    ensures PassInv(d0, Visit(mode, image, opens, stamp, st, occ))
  {
    var r := Visit(mode, image, opens, stamp, st, occ);
    if r != st {
      var hdr := UnitAt(image, occ.off);
      var n := ChunkCount(Field(hdr, OFF_SIZE, LEN_SIZE));
      CutKeepsInv(mode, d0, st, occ.obj, OutputName(hdr, stamp), n, opens);
    }
  }

  lemma {:induction false} WalkKeepsInv(mode: Mode, image: seq<uint8>, opens: seq<uint8> -> bool,
                                        stamp: nat -> seq<uint8>, d0: ObjMap, st: Pass,
                                        occs: seq<Occurrence>)
    requires forall i :: 0 <= i < |occs| ==> occs[i].off + SIZE_UNIT <= |image|
    requires Separated(PoolsOf(d0)) && PassInv(d0, st)
    ensures PassInv(d0, Walk(mode, image, opens, stamp, st, occs))
    decreases |occs|
  {
    if |occs| > 0 {
      VisitKeepsInv(mode, image, opens, stamp, d0, st, occs[0]);
      WalkKeepsInv(mode, image, opens, stamp, d0, Visit(mode, image, opens, stamp, st, occs[0]), occs[1..]);
    }
  }

  /**
   `Recover` on separated, well-formed payload pools: the status is OK, the
   header index is untouched, no object id is erased from the payload
   index, each pool left is a final part of the original pool, and the
   files written hold distinct chunks of their own object that are gone
   from the pool, no chunk in two files.
   */
  lemma RecoverWritesEachChunkOnce(mode: Mode, sb: SuperBlock, image: seq<uint8>,
                                   opens: seq<uint8> -> bool, stamp: nat -> seq<uint8>)
    requires InImage(sb.objHeaderMap, image)
    requires Separated(PoolsOf(sb.dataChunkMap)) && Shaped(sb.dataChunkMap)
    ensures var out := Recover(mode, sb, image, opens, stamp);
      var p0 := PoolsOf(sb.dataChunkMap);
      var p := PoolsOf(out.sb.dataChunkMap);
      && out.status == YAFFS2_OK
      && out.sb.objHeaderMap == sb.objHeaderMap
      && out.sb.dataChunkMap.Keys == sb.dataChunkMap.Keys
      && (forall o :: o in p ==> IsSuffix(p[o], p0[o]))
      && (forall i :: 0 <= i < |out.log| ==> Written(p0, p, out.log[i]))
      && (forall i, j :: 0 <= i < j < |out.log| ==> Disjoint(out.log[i].chunks, out.log[j].chunks))
  {
    var d0 := sb.dataChunkMap;
    var p0 := PoolsOf(d0);
    OccurrencesFiled(sb.objHeaderMap);
    forall o | o in p0
      ensures IsSuffix(p0[o], p0[o])
    {
      assert p0[o] == p0[o][|p0[o]| - |p0[o]|..];
    }
    WalkKeepsInv(mode, image, opens, stamp, d0, Pass(d0, []), Occurrences(sb.objHeaderMap));
  }

  lemma {:induction false} WalkNothingOpens(mode: Mode, image: seq<uint8>, opens: seq<uint8> -> bool,
                                            stamp: nat -> seq<uint8>, st: Pass, occs: seq<Occurrence>)
    requires forall i :: 0 <= i < |occs| ==> occs[i].off + SIZE_UNIT <= |image|
    requires forall name :: !opens(name)
    ensures Walk(mode, image, opens, stamp, st, occs) == st
    decreases |occs|
  {
    if |occs| > 0 {
      assert Visit(mode, image, opens, stamp, st, occs[0]) == st;
      WalkNothingOpens(mode, image, opens, stamp, st, occs[1..]);
    }
  }

  /**
   When no output file can be opened, `Recover` still reports YAFFS2_OK,
   writes nothing and leaves both indices as they were.
   */
  lemma RecoverNothingOpens(mode: Mode, sb: SuperBlock, image: seq<uint8>,
                            opens: seq<uint8> -> bool, stamp: nat -> seq<uint8>)
    requires InImage(sb.objHeaderMap, image)
    requires forall name :: !opens(name)
    ensures Recover(mode, sb, image, opens, stamp) == Outcome(YAFFS2_OK, sb, [])
  {
    OccurrencesFiled(sb.objHeaderMap);
    WalkNothingOpens(mode, image, opens, stamp, Pass(sb.dataChunkMap, []), Occurrences(sb.objHeaderMap));
  }

  /**
   Indices built from a cleared engine satisfy what `Recover` needs: every
   header offset addresses a whole unit, and payload pools are well formed
   and separated, since a unit offset has one class.
   */
  lemma BuildPrepares(sb: SuperBlock, image: seq<uint8>)
    ensures var r := Build(Clear(sb), image);
      InImage(r.objHeaderMap, image) && Shaped(r.dataChunkMap) && Separated(PoolsOf(r.dataChunkMap))
  {
    var r := Build(Clear(sb), image);
    var d := r.dataChunkMap;
    BuildIndexesImage(sb, image);
    forall o | o in d
      ensures forall x :: x in Pool(d[o]) ==> exists b :: Entry(image, x) == DataUnit(o, b)
    {
      PoolEntries(d, o, image);
    }
    forall o | o in d
      ensures Distinct(Pool(d[o]))
    {
      forall k1, k2, x | k1 in d[o] && k2 in d[o] && x in d[o][k1] && x in d[o][k2]
        ensures k1 == k2
      {
        assert Filed(d, o, k1, x) && Filed(d, o, k2, x);
      }
      PoolDistinct(d[o]);
    }
    forall o1, o2 | o1 in d && o2 in d && o1 != o2
      ensures Disjoint(Pool(d[o1]), Pool(d[o2]))
    {
    }
    var p := PoolsOf(d);
    assert forall o :: o in p ==> Distinct(p[o]);
    assert forall o1, o2 :: o1 in p && o2 in p && o1 != o2 ==> Disjoint(p[o1], p[o2]);
  }

  /** Every pool offset of object o is a filed payload unit of o. */
  lemma PoolEntries(d: ObjMap, o: nat, image: seq<uint8>)
    requires o in d
    requires forall o': nat, b: nat, x: nat :: Filed(d, o', b, x) <==> Entry(image, x) == DataUnit(o', b)
    ensures forall x :: x in Pool(d[o]) ==> exists b :: Entry(image, x) == DataUnit(o, b)
  {
    var c := Chain(d[o]);
    ChainMembers(d[o]);
    forall x | x in Pool(d[o])
      ensures exists b :: Entry(image, x) == DataUnit(o, b)
    {
      var i :| 0 <= i < |c| && Pool(d[o])[i] == x;
      assert Filed(d, o, c[i].blk, x);
    }
  }

  /**
   Build from a cleared engine, then Recover: each file holds only payload
   units of its own object, and no payload unit lands in two files.
   */
  lemma BuildThenRecover(mode: Mode, sb: SuperBlock, image: seq<uint8>,
                         opens: seq<uint8> -> bool, stamp: nat -> seq<uint8>)
    ensures InImage(Build(Clear(sb), image).objHeaderMap, image)
    ensures var out := Recover(mode, Build(Clear(sb), image), image, opens, stamp);
      && (forall i, x :: 0 <= i < |out.log| && x in out.log[i].chunks ==>
            Entry(image, x).DataUnit? && Entry(image, x).obj == out.log[i].obj)
      && (forall i, j :: 0 <= i < j < |out.log| ==> Disjoint(out.log[i].chunks, out.log[j].chunks))
  {
    var r := Build(Clear(sb), image);
    BuildPrepares(sb, image);
    BuildIndexesImage(sb, image);
    RecoverWritesEachChunkOnce(mode, r, image, opens, stamp);
    var out := Recover(mode, r, image, opens, stamp);
    forall i, x | 0 <= i < |out.log| && x in out.log[i].chunks
      ensures Entry(image, x).DataUnit? && Entry(image, x).obj == out.log[i].obj
    {
      var o := out.log[i].obj;
      assert Written(PoolsOf(r.dataChunkMap), PoolsOf(out.sb.dataChunkMap), out.log[i]);
      PoolEntries(r.dataChunkMap, o, image);
    }
  }

  /**
   One header occurrence. A file is written exactly when the payload index
   is non-empty, the header declares a positive size, the object has a
   non-empty BlockMap and its output file opens; the file is named after
   the header and receives the newest min(ChunkCount(size), pool size)
   chunks of the object's pool, oldest first. Otherwise nothing changes,
   and in any case no other object's pool changes.
   */
  lemma VisitSpec(mode: Mode, image: seq<uint8>, opens: seq<uint8> -> bool,
                  stamp: nat -> seq<uint8>, st: Pass, occ: Occurrence)
    requires occ.off + SIZE_UNIT <= |image|
    ensures var r := Visit(mode, image, opens, stamp, st, occ);
      var hdr := UnitAt(image, occ.off);
      var size := Field(hdr, OFF_SIZE, LEN_SIZE);
      var name := OutputName(hdr, stamp);
      var fires := |st.data| > 0 && size > 0 && occ.obj in st.data && |st.data[occ.obj]| > 0 && opens(name);
      && (!fires ==> r == st)
      && (fires ==>
            && r.data.Keys == st.data.Keys
            && (forall o :: o in st.data && o != occ.obj ==> r.data[o] == st.data[o])
            && |r.log| == |st.log| + 1 && r.log[..|st.log|] == st.log
            && r.log[|st.log|].name == name && r.log[|st.log|].obj == occ.obj
            && var p := Pool(st.data[occ.obj]);
               var chunks := r.log[|st.log|].chunks;
               |chunks| == Min(ChunkCount(size), |p|) && chunks == Reverse(p[..|chunks|]))
  {
    var hdr := UnitAt(image, occ.off);
    var size := Field(hdr, OFF_SIZE, LEN_SIZE);
    var name := OutputName(hdr, stamp);
    if |st.data| > 0 && size > 0 && occ.obj in st.data && |st.data[occ.obj]| > 0 && opens(name) {
      var n := ChunkCount(size);
      var f := RecoverFile(mode, name, n, st.data[occ.obj], opens);
      VisitFires(mode, image, opens, stamp, st, occ);
      RecoverFileSpec(mode, name, n, st.data[occ.obj], opens);
      LogGrows(st.log, Output(name, occ.obj, f.written));
    }
  }

  /** The visit that writes a file, unfolded. */
  lemma VisitFires(mode: Mode, image: seq<uint8>, opens: seq<uint8> -> bool,
                   stamp: nat -> seq<uint8>, st: Pass, occ: Occurrence)
    requires occ.off + SIZE_UNIT <= |image|
    requires var hdr := UnitAt(image, occ.off);
      && |st.data| > 0 && Field(hdr, OFF_SIZE, LEN_SIZE) > 0 && occ.obj in st.data
      && |st.data[occ.obj]| > 0 && opens(OutputName(hdr, stamp))
    ensures var hdr := UnitAt(image, occ.off);
      var name := OutputName(hdr, stamp);
      var f := RecoverFile(mode, name, ChunkCount(Field(hdr, OFF_SIZE, LEN_SIZE)), st.data[occ.obj], opens);
      Visit(mode, image, opens, stamp, st, occ)
        == Pass(st.data[occ.obj := f.rest], st.log + [Output(name, occ.obj, f.written)])
  {
  }

  lemma LogGrows(log: seq<Output>, e: Output)
    ensures |log + [e]| == |log| + 1 && (log + [e])[..|log|] == log && (log + [e])[|log|] == e
  {
  }

  /** After `Clear`, `Recover` writes nothing and reports YAFFS2_OK. */
  lemma ClearThenRecover(mode: Mode, sb: SuperBlock, image: seq<uint8>,
                         opens: seq<uint8> -> bool, stamp: nat -> seq<uint8>)
    ensures InImage(Clear(sb).objHeaderMap, image)
    ensures Recover(mode, Clear(sb), image, opens, stamp) == Outcome(YAFFS2_OK, Clear(sb), [])
  {
  }
}

=== FILE: peel.dfy ===
/**
 What one call of `recover` does to an object's payload pool: it takes the
 newest min(n, pool size) chunks, writes them oldest first, and leaves a
 pool that is what remained (intended reading) or a final part of it (as
 written, which also drops the untaken rest of every visited block).
 */
module PeelFacts {
  import opened Layout
  import opened Ordered
  import opened Recovery

  /** `recover` pushes exactly the newest min(n, pool size) slots, newest first. */
  lemma {:induction false} CollectTakesNewest(bm: BlockMap, n: nat)
    requires n > 0 && |bm| > 0
    ensures Collect(bm, n) == Chain(bm)[..Min(n, |Chain(bm)|)]
    decreases |bm|
  {
    var k := MaxOf(bm.Keys);
    var v := bm[k];
    var w := Without(bm, k);
    var h := Newest(k, v);
    assert Chain(bm) == h + Chain(w);
    if n <= |v| {
      assert (h + Chain(w))[..n] == h[..n];
    } else if |bm| == 1 {
      assert Chain(w) == [];
      assert Chain(bm) == h;
    } else {
      CollectTakesNewest(w, n - |v|);
      var t := Min(n - |v|, |Chain(w)|);
      assert (h + Chain(w))[..|v| + t] == h + Chain(w)[..t];
    }
  }

  /** One step of the chain: the newest bucket from its back, then the rest. */
  lemma ChainUnfold(bm: BlockMap)
    requires |bm| > 0
    ensures Chain(bm) == Newest(MaxOf(bm.Keys), bm[MaxOf(bm.Keys)]) + Chain(Without(bm, MaxOf(bm.Keys)))
  {
  }

  /** The bucket slice left after taking the newest n slots of a bucket. */
  lemma NewestOfFront(k: nat, v: OffsetVector, n: nat)
    requires n < |v|
    ensures Newest(k, v[..|v| - n]) == Newest(k, v)[n..]
  {
  }

  /**
   Under the intended reading the pool left behind is exactly the pool
   without the taken prefix: nothing more is lost.
   */
  lemma {:induction false} RestIntendedIsRemainder(bm: BlockMap, n: nat)
    requires n > 0 && |bm| > 0
    ensures Chain(RestIntended(bm, n)) == Chain(bm)[Min(n, |Chain(bm)|)..]
    decreases |bm|
  {
    var k := MaxOf(bm.Keys);
    var v := bm[k];
    if n < |v| {
      RemainderInNewest(bm, n);
    } else if n == |v| || |bm| == 1 {
      RemainderAfterNewest(bm, n);
    } else {
      var w := Without(bm, k);
      RestIntendedIsRemainder(w, n - |v|);
      RemainderPastNewest(bm, n);
    }
  }

  /** The taken slots all lie in the newest bucket, which keeps a front part. */
  lemma RemainderInNewest(bm: BlockMap, n: nat)
    requires n > 0 && |bm| > 0 && n < |bm[MaxOf(bm.Keys)]|
    ensures Chain(RestIntended(bm, n)) == Chain(bm)[Min(n, |Chain(bm)|)..]
  {
    var k := MaxOf(bm.Keys);
    var v := bm[k];
    var v' := v[..|v| - n];
    var h := Newest(k, v);
    var cw := Chain(Without(bm, k));
    var r := RestIntended(bm, n);
    assert r == bm[k := v'];
    ChainOfUpdatedMax(bm, k, v');
    NewestOfFront(k, v, n);
    assert Chain(r) == h[n..] + cw;
    ChainUnfold(bm);
    assert Min(n, |Chain(bm)|) == n;
    DropInFront(h, cw, n);
  }

  /** The taken slots are the whole newest bucket (or the whole map). */
  lemma RemainderAfterNewest(bm: BlockMap, n: nat)
    requires n > 0 && |bm| > 0
    requires n == |bm[MaxOf(bm.Keys)]| || (|bm| == 1 && n > |bm[MaxOf(bm.Keys)]|)
    ensures Chain(RestIntended(bm, n)) == Chain(bm)[Min(n, |Chain(bm)|)..]
  {
    var k := MaxOf(bm.Keys);
    var w := Without(bm, k);
    var h := Newest(k, bm[k]);
    var cw := Chain(w);
    ChainUnfold(bm);
    if |w| == 0 {
      assert cw == [];
    }
    assert (h + cw)[|h|..] == cw;
  }

  /** The newest bucket is taken whole and the rest comes from older blocks. */
  lemma RemainderPastNewest(bm: BlockMap, n: nat)
    requires n > 0 && |bm| > 1
    requires n > |bm[MaxOf(bm.Keys)]|
    requires var w := Without(bm, MaxOf(bm.Keys)); var m := n - |bm[MaxOf(bm.Keys)]|;
      Chain(RestIntended(w, m)) == Chain(w)[Min(m, |Chain(w)|)..]
    ensures Chain(RestIntended(bm, n)) == Chain(bm)[Min(n, |Chain(bm)|)..]
  {
    var k := MaxOf(bm.Keys);
    var v := bm[k];
    var w := Without(bm, k);
    ChainUnfold(bm);
    DropPastFrontMin(Chain(bm), Newest(k, v), Chain(w), n);
  }

  /** Dropping an empty newest bucket does not change the chain. */
  lemma EraseFromKeepsChain(u: BlockMap)
    ensures Chain(EraseFrom(u)) == Chain(u)
  {
    if |u| > 0 {
      var y := MaxOf(u.Keys);
      if |u[y]| == 0 {
        assert Chain(u) == Newest(y, u[y]) + Chain(Without(u, y));
      }
    }
  }

  /**
   As written, the pool left behind is a final part of what remained after
   the taken prefix: whatever else it lost came from visited blocks.
   */
  lemma {:induction false} RestAsWrittenIsSuffix(bm: BlockMap, n: nat)
    requires n > 0 && |bm| > 0
    ensures IsSuffix(Chain(RestAsWritten(bm, n)), Chain(bm)[Min(n, |Chain(bm)|)..])
    decreases |bm|
  {
    var k := MaxOf(bm.Keys);
    var v := bm[k];
    if n <= |v| {
      SuffixWithinNewest(bm, n);
    } else if |bm| == 1 {
      ChainUnfold(bm);
      assert |Without(bm, k)| == 0;
    } else {
      RestAsWrittenIsSuffix(Without(bm, k), n - |v|);
      SuffixPastNewest(bm, n);
    }
  }

  /** The loop stops inside the newest block: everything older survives. */
  lemma SuffixWithinNewest(bm: BlockMap, n: nat)
    requires n > 0 && |bm| > 0 && n <= |bm[MaxOf(bm.Keys)]|
    ensures IsSuffix(Chain(RestAsWritten(bm, n)), Chain(bm)[Min(n, |Chain(bm)|)..])
  {
    var k := MaxOf(bm.Keys);
    var w := Without(bm, k);
    var h := Newest(k, bm[k]);
    ChainUnfold(bm);
    EraseFromKeepsChain(w);
    DropInFront(h, Chain(w), n);
  }

  /** The newest block is visited whole; the rest comes from older blocks. */
  lemma SuffixPastNewest(bm: BlockMap, n: nat)
    requires n > 0 && |bm| > 1
    requires n > |bm[MaxOf(bm.Keys)]|
    requires var w := Without(bm, MaxOf(bm.Keys)); var m := n - |bm[MaxOf(bm.Keys)]|;
      IsSuffix(Chain(RestAsWritten(w, m)), Chain(w)[Min(m, |Chain(w)|)..])
    ensures IsSuffix(Chain(RestAsWritten(bm, n)), Chain(bm)[Min(n, |Chain(bm)|)..])
  {
    var k := MaxOf(bm.Keys);
    var v := bm[k];
    var w := Without(bm, k);
    assert RestAsWritten(bm, n) == RestAsWritten(w, n - |v|);
    ChainUnfold(bm);
    SuffixPastFront(Chain(bm), Newest(k, v), Chain(w), Chain(RestAsWritten(w, n - |v|)), n);
  }

  /**
   When c is a followed by b and n reaches past a, a final part of what is
   left of b after its first n - |a| elements is a final part of what is
   left of c after its first n.
   */
  lemma SuffixPastFront<T>(c: seq<T>, a: seq<T>, b: seq<T>, x: seq<T>, n: nat)
    requires c == a + b && n > |a|
    requires IsSuffix(x, b[Min(n - |a|, |b|)..])
    ensures IsSuffix(x, c[Min(n, |c|)..])
  {
    DropPastFrontMin(c, a, b, n);
  }

  /** Dropping the first n of a + b, for n past a, drops n - |a| of b. */
  lemma DropPastFrontMin<T>(c: seq<T>, a: seq<T>, b: seq<T>, n: nat)
    requires c == a + b && n > |a|
    ensures c[Min(n, |c|)..] == b[Min(n - |a|, |b|)..]
  {
    DropPastFront(a, b, Min(n - |a|, |b|));
  }

  /** The pool left by either reading is a final part of what remained. */
  lemma RestIsSuffix(mode: Mode, bm: BlockMap, n: nat)
    requires n > 0 && |bm| > 0
    ensures IsSuffix(Chain(Rest(mode, bm, n)), Chain(bm)[Min(n, |Chain(bm)|)..])
    ensures mode == Intended ==> Chain(Rest(mode, bm, n)) == Chain(bm)[Min(n, |Chain(bm)|)..]
  {
    match mode
    case AsWritten => RestAsWrittenIsSuffix(bm, n);
    case Intended =>
      RestIntendedIsRemainder(bm, n);
      var c := Chain(bm)[Min(n, |Chain(bm)|)..];
      assert c == c[|c| - |c|..];
  }

  /** As written, every block kept is kept untouched. */
  lemma {:induction false} RestAsWrittenKeepsBlocks(bm: BlockMap, n: nat)
    requires n > 0 && |bm| > 0
    ensures forall k :: k in RestAsWritten(bm, n) ==> k in bm && RestAsWritten(bm, n)[k] == bm[k]
    decreases |bm|
  {
    var k := MaxOf(bm.Keys);
    var v := bm[k];
    var w := Without(bm, k);
    if n > |v| && |bm| > 1 {
      RestAsWrittenKeepsBlocks(w, n - |v|);
    }
  }

  /** Block k is older than every slot taken, so the peel never reached it. */
  predicate Unvisited(k: nat, taken: seq<Slot>)
  {
    forall s :: s in taken ==> k < s.blk
  }

  /** Every slot taken from within the newest bucket lies in that bucket's block. */
  lemma TakenFromNewest(bm: BlockMap, n: nat)
    requires n > 0 && |bm| > 0 && n <= |bm[MaxOf(bm.Keys)]|
    ensures forall s :: s in Collect(bm, n) ==> s.blk == MaxOf(bm.Keys)
  {
    var h := Newest(MaxOf(bm.Keys), bm[MaxOf(bm.Keys)]);
    forall s | s in Collect(bm, n)
      ensures s.blk == MaxOf(bm.Keys)
    {
      var i :| 0 <= i < n && h[..n][i] == s;
      assert h[i] == s;
    }
  }

  /**
   As written, lines 112-115 erase every visited block whole: each block
   kept is older than every slot taken.
   */
  lemma {:induction false} RestAsWrittenErasesVisited(bm: BlockMap, n: nat)
    requires n > 0 && |bm| > 0
    ensures forall k :: k in RestAsWritten(bm, n) ==> Unvisited(k, Collect(bm, n))
    decreases |bm|
  {
    var k := MaxOf(bm.Keys);
    var v := bm[k];
    var w := Without(bm, k);
    if n <= |v| {
      TakenFromNewest(bm, n);
    } else if |bm| > 1 {
      var m := n - |v|;
      RestAsWrittenErasesVisited(w, m);
      RestAsWrittenKeepsBlocks(w, m);
      assert Collect(bm, n) == Newest(k, v) + Collect(w, m);
    }
  }

  /**
   As written, on a well-formed pool whose peel stops before `rend()`,
   every block older than all the slots taken is kept.
   */
  lemma {:induction false} RestAsWrittenKeepsUnvisited(bm: BlockMap, n: nat)
    requires n > 0 && |bm| > 0 && WellFormed(bm) && !ReachesRend(bm, n)
    ensures forall k :: k in bm && Unvisited(k, Collect(bm, n)) ==> k in RestAsWritten(bm, n)
    decreases |bm|
  {
    var k := MaxOf(bm.Keys);
    var v := bm[k];
    var w := Without(bm, k);
    var h := Newest(k, v);
    var taken := Collect(bm, n);
    if n <= |v| {
      assert taken == h[..n];
      assert taken[0] == h[0];
      assert |bm| > 1;
      var y := MaxOf(w.Keys);
      assert |w[y]| > 0;
      assert RestAsWritten(bm, n) == w;
      forall j | j in bm && Unvisited(j, taken)
        ensures j in RestAsWritten(bm, n)
      {
        assert taken[0].blk == k;
      }
    } else {
      var m := n - |v|;
      assert |bm| > 1 && !ReachesRend(w, m);
      assert WellFormed(w);
      RestAsWrittenKeepsUnvisited(w, m);
      assert taken == h + Collect(w, m);
      assert taken[0] == h[0];
      forall j | j in bm && Unvisited(j, taken)
        ensures j in RestAsWritten(bm, n)
      {
        assert taken[0].blk == k;
        assert j in w;
        assert Unvisited(j, Collect(w, m));
      }
    }
  }

  /** Under the intended reading, kept buckets are front parts and never empty. */
  lemma {:induction false} RestIntendedShape(bm: BlockMap, n: nat)
    requires n > 0 && |bm| > 0
    ensures Sub(RestIntended(bm, n), bm)
    ensures WellFormed(bm) ==> WellFormed(RestIntended(bm, n))
    decreases |bm|
  {
    var k := MaxOf(bm.Keys);
    var v := bm[k];
    var w := Without(bm, k);
    if n < |v| {
      var r := RestIntended(bm, n);
      assert r[k] == v[..|v| - n];
      if WellFormed(bm) {
        SubKeepsWellFormed(r, bm);
      }
    } else if n > |v| && |bm| > 1 {
      RestIntendedShape(w, n - |v|);
    }
  }

  /** Either reading keeps a well-formed pool well-formed and within the old one. */
  lemma RestShape(mode: Mode, bm: BlockMap, n: nat)
    requires n > 0 && |bm| > 0
    ensures Sub(Rest(mode, bm, n), bm)
    ensures WellFormed(bm) ==> WellFormed(Rest(mode, bm, n))
  {
    match mode
    case AsWritten => RestAsWrittenKeepsBlocks(bm, n);
    case Intended => RestIntendedShape(bm, n);
  }

  /** Once the loop reaches `rend()`, the as-written erase empties the BlockMap. */
  lemma {:induction false} ReachesRendEmpties(bm: BlockMap, n: nat)
    requires n > 0 && |bm| > 0
    requires ReachesRend(bm, n)
    ensures RestAsWritten(bm, n) == map[]
    decreases |bm|
  {
    var k := MaxOf(bm.Keys);
    var v := bm[k];
    var w := Without(bm, k);
    if |bm| > 1 {
      ReachesRendEmpties(w, n - |v|);
    }
  }

  /** A non-empty pool: a well-formed non-empty BlockMap holds at least one chunk. */
  lemma PoolNonEmpty(bm: BlockMap)
    requires |bm| > 0 && WellFormed(bm)
    ensures |Chain(bm)| >= 1
  {
    var k := MaxOf(bm.Keys);
    assert Chain(bm) == Newest(k, bm[k]) + Chain(Without(bm, k));
  }

  /** Dropping fewer elements than the front part holds. */
  lemma DropInFront<T>(a: seq<T>, b: seq<T>, n: nat)
    requires n <= |a|
    ensures (a + b)[n..] == a[n..] + b
  {
  }

  /** Dropping the whole front part and t more. */
  lemma DropPastFront<T>(a: seq<T>, b: seq<T>, t: nat)
    requires t <= |b|
    ensures (a + b)[|a| + t..] == b[t..]
  {
  }

  /** Offsets of slices are slices of offsets. */
  lemma OffsSlices(c: seq<Slot>, t: nat)
    requires t <= |c|
    ensures Offs(c[..t]) == Offs(c)[..t]
    ensures Offs(c[t..]) == Offs(c)[t..]
  {
  }

  lemma OffsSuffix(a: seq<Slot>, b: seq<Slot>)
    requires IsSuffix(a, b)
    ensures IsSuffix(Offs(a), Offs(b))
  {
    OffsSlices(b, |b| - |a|);
  }

  /**
   One call of `recover`. If the file cannot be opened the status is
   YAFFS2_FAILURE and neither the pool nor the output changes. Otherwise the
   status is YAFFS2_OK, the file receives the newest min(n, pool size)
   chunks in oldest-first order, and the pool left behind is a final part
   of the rest of the pool (all of it, under the intended reading). As
   written, the blocks kept are untouched and older than every chunk taken,
   and short of `rend()` every such older block is kept.
   */
  lemma RecoverFileSpec(mode: Mode, name: seq<uint8>, n: nat, bm: BlockMap, opens: seq<uint8> -> bool)
    requires n > 0 && |bm| > 0
    ensures var f := RecoverFile(mode, name, n, bm, opens);
      && (f.status == YAFFS2_OK <==> opens(name))
      && (!opens(name) ==> f.status == YAFFS2_FAILURE && f.rest == bm && f.written == [])
      && (opens(name) ==>
            && |f.written| == Min(n, |Pool(bm)|)
            && f.written == Reverse(Pool(bm)[..|f.written|])
            && IsSuffix(Pool(f.rest), Pool(bm)[|f.written|..])
            && (mode == Intended ==> Pool(f.rest) == Pool(bm)[|f.written|..])
            && Sub(f.rest, bm)
            && (mode == AsWritten ==>
                  forall k :: k in f.rest ==> f.rest[k] == bm[k] && Unvisited(k, Collect(bm, n)))
            && (mode == AsWritten && WellFormed(bm) && !ReachesRend(bm, n) ==>
                  forall k :: k in bm && Unvisited(k, Collect(bm, n)) ==> k in f.rest))
  {
    RestAsWrittenKeepsBlocks(bm, n);
    RestAsWrittenErasesVisited(bm, n);
    if WellFormed(bm) && !ReachesRend(bm, n) {
      RestAsWrittenKeepsUnvisited(bm, n);
    }
    var c := Chain(bm);
    CollectTakesNewest(bm, n);
    RestIsSuffix(mode, bm, n);
    RestShape(mode, bm, n);
    var t := Min(n, |c|);
    OffsSlices(c, t);
    OffsSuffix(Chain(Rest(mode, bm, n)), c[t..]);
  }

  /**
   On a well-formed pool every chunk taken is newer than every chunk left:
   a larger block id, or the same block and a larger offset. The chunks are
   written in strictly ascending (block, offset) order.
   */
  lemma TakenNewerThanLeft(mode: Mode, bm: BlockMap, n: nat)
    requires n > 0 && |bm| > 0 && WellFormed(bm)
    ensures var taken := Collect(bm, n);
      forall s, t :: s in taken && t in Chain(Rest(mode, bm, n)) ==> Newer(s, t)
    ensures var written := Reverse(Collect(bm, n));
      forall i, j :: 0 <= i < j < |written| ==> Newer(written[j], written[i])
  {
    var c := Chain(bm);
    ChainNewestFirst(bm);
    CollectTakesNewest(bm, n);
    RestIsSuffix(mode, bm, n);
    var t := Min(n, |c|);
    var left := Chain(Rest(mode, bm, n));
    FrontNewerThanBack(c, t, |c| - |left|);
    assert left == c[|c| - |left|..];
  }

  /** In a newest-first run, the front part is newer than anything from p on, p >= t. */
  lemma FrontNewerThanBack(c: seq<Slot>, t: nat, p: nat)
    requires t <= p <= |c|
    requires forall i, j :: 0 <= i < j < |c| ==> Newer(c[i], c[j])
    ensures forall s, u :: s in c[..t] && u in c[p..] ==> Newer(s, u)
    ensures forall i, j :: 0 <= i < j < t ==> Newer(Reverse(c[..t])[j], Reverse(c[..t])[i])
  {
    forall s, u | s in c[..t] && u in c[p..]
      ensures Newer(s, u)
    {
      var i :| 0 <= i < t && c[..t][i] == s;
      var j :| 0 <= j < |c| - p && c[p..][j] == u;
      assert c[i] == s && c[p + j] == u;
    }
  }
}

=== FILE: recovery.dfy ===
/**
 The reconstruction engine: `recover`, which peels the newest payload
 chunks of one object off its BlockMap, and `Recover`, the reverse pass
 over every header occurrence that drives it.

 Lines 112-115 of `recover` erase through an iterator that the loop has
 already moved one block past the last visited one. The model keeps both
 readings: `AsWritten` (every visited block is erased whole; when every
 block was visited the code dereferences `rend()`, and the model takes the
 evident outcome, an empty BlockMap) and `Intended` (exactly the taken
 offsets are removed and blocks left empty are dropped).
 */
module Recovery {
  import opened Layout
  import opened Codec
  import opened Ordered
  import opened Index

  datatype Option<T> = None | Some(value: T)

  function Min(a: nat, b: nat): nat
  {
    if a <= b then a else b
  }

  /** The sequence read from its back. */
  function Reverse<T>(s: seq<T>): (r: seq<T>)
    ensures |r| == |s|
    ensures forall i :: 0 <= i < |s| ==> r[i] == s[|s| - 1 - i]
  {
    seq(|s|, i requires 0 <= i < |s| => s[|s| - 1 - i])
  }

  /** `a` is a final segment of `b`. */
  predicate IsSuffix<T(==)>(a: seq<T>, b: seq<T>)
  {
    |a| <= |b| && a == b[|b| - |a|..]
  }

  /**
   Number of payload chunks a header of `size` bytes needs:
   `size / SIZE_CHUNK + (size % SIZE_CHUNK != 0)`, the ceiling of size / 2048.
   */
  function ChunkCount(size: nat): (n: nat)
    requires size > 0
    ensures n >= 1
    ensures (n - 1) * SIZE_CHUNK < size <= n * SIZE_CHUNK
  {
    size / SIZE_CHUNK + (if size % SIZE_CHUNK != 0 then 1 else 0)
  }

  /**
   The offsets `recover` pushes on its stack (lines 101-108): blocks by
   descending id, each bucket from its back, until n offsets are taken or
   the blocks run out.
   */
  function Collect(bm: BlockMap, n: nat): (r: seq<Slot>)
    requires n > 0 && |bm| > 0
    ensures |r| <= n
    decreases |bm|
  {
    var k := MaxOf(bm.Keys);
    var v := bm[k];
    if n <= |v| then Newest(k, v)[..n]
    else if |bm| == 1 then Newest(k, v)
    else Newest(k, v) + Collect(Without(bm, k), n - |v|)
  }

  /** Which reading of lines 112-115 the engine follows. */
  datatype Mode = AsWritten | Intended

  /**
   Lines 112-115 as written, with `block` at the first block the loop did
   not visit (the newest of `unvisited`): that block is dropped too when it
   is empty, and everything newer is erased.
   */
  function EraseFrom(unvisited: BlockMap): BlockMap
  {
    if |unvisited| == 0 then unvisited
    else
      var y := MaxOf(unvisited.Keys);
      if |unvisited[y]| == 0 then Without(unvisited, y) else unvisited
  }

  /**
   The BlockMap left by `recover` as written: every call erases at least
   one whole block (the newest), even when only part of it was taken.
   */
  function RestAsWritten(bm: BlockMap, n: nat): (r: BlockMap)
    requires n > 0 && |bm| > 0
    ensures |r| < |bm|
    decreases |bm|
  {
    var k := MaxOf(bm.Keys);
    var v := bm[k];
    if n <= |v| then EraseFrom(Without(bm, k))
    else if |bm| == 1 then Without(bm, k)
    else RestAsWritten(Without(bm, k), n - |v|)
  }

  /**
   The loop visits every block, so line 112 dereferences `rend()`; the
   model's `RestAsWritten` then gives the evident outcome, an empty map.
   */
  predicate ReachesRend(bm: BlockMap, n: nat)
    requires n > 0 && |bm| > 0
    decreases |bm|
  {
    var k := MaxOf(bm.Keys);
    var v := bm[k];
    if n <= |v| then |bm| == 1
    else |bm| == 1 || ReachesRend(Without(bm, k), n - |v|)
  }

  /**
   The BlockMap the evident intent of lines 109-115 leaves: the taken
   offsets are gone, a partly used bucket keeps its older front part, and
   blocks left empty are dropped.
   */
  function RestIntended(bm: BlockMap, n: nat): BlockMap
    requires n > 0 && |bm| > 0
    decreases |bm|
  {
    var k := MaxOf(bm.Keys);
    var v := bm[k];
    if n < |v| then bm[k := v[..|v| - n]]
    else if n == |v| || |bm| == 1 then Without(bm, k)
    else RestIntended(Without(bm, k), n - |v|)
  }

  function Rest(mode: Mode, bm: BlockMap, n: nat): BlockMap
    requires n > 0 && |bm| > 0
  {
    match mode
    case AsWritten => RestAsWritten(bm, n)
    case Intended => RestIntended(bm, n)
  }

  /** What one call of `recover` returns and leaves behind. */
  datatype Recovered = Recovered(status: int, rest: BlockMap, written: seq<nat>)

  /**
   `recover(name, n_chunks, data_blk)`. When the output file cannot be
   opened nothing is touched and the status is YAFFS2_FAILURE. Otherwise the
   collected offsets are written in stack order (the reverse of collection),
   the BlockMap is cut back, and the status is YAFFS2_OK.
   */
  function RecoverFile(mode: Mode, name: seq<uint8>, n: nat, bm: BlockMap,
                       opens: seq<uint8> -> bool): (r: Recovered)
    requires n > 0 && |bm| > 0
    ensures r.status == YAFFS2_OK <==> opens(name)
    ensures r.status != YAFFS2_OK ==> r.status == YAFFS2_FAILURE && r.rest == bm && r.written == []
    ensures |r.written| <= n
  {
    if opens(name) then Recovered(YAFFS2_OK, Rest(mode, bm, n), Reverse(Offs(Collect(bm, n))))
    else Recovered(YAFFS2_FAILURE, bm, [])
  }

  /** One output file: its name, the object it belongs to, its chunks in write order. */
  datatype Output = Output(name: seq<uint8>, obj: nat, chunks: seq<nat>)

  /** The state threaded through the pass: the payload pool and the files written. */
  datatype Pass = Pass(data: ObjMap, log: seq<Output>)

  /** One header occurrence: object id, block id and offset of the header unit. */
  datatype Occurrence = Occurrence(obj: nat, blk: nat, off: nat)

  /** The occurrences of one object, in its chain's order. */
  function Tagged(o: nat, c: seq<Slot>): (r: seq<Occurrence>)
    ensures |r| == |c|
    ensures forall i :: 0 <= i < |c| ==> r[i] == Occurrence(o, c[i].blk, c[i].off)
  {
    seq(|c|, i requires 0 <= i < |c| => Occurrence(o, c[i].blk, c[i].off))
  }

  /**
   The header occurrences in the order `Recover`'s three nested reverse
   loops visit them: objects by descending id, then each object's chain.
   */
  function Occurrences(hm: ObjMap): seq<Occurrence>
    decreases |hm|
  {
    if |hm| == 0 then []
    else
      var o := MaxOf(hm.Keys);
      Tagged(o, Chain(hm[o])) + Occurrences(Without(hm, o))
  }

  /** Every header offset of the index addresses a whole unit of the image. */
  ghost predicate InImage(m: ObjMap, image: seq<uint8>)
  {
    forall o: nat, b: nat, x: nat :: Filed(m, o, b, x) ==> x + SIZE_UNIT <= |image|
  }

  /**
   The body of `Recover`'s innermost loop for one header occurrence. The
   `!dataChunkMap_.empty()` guards come first; a header of size 0 yields
   nothing; an object without a non-empty BlockMap yields nothing; else
   `recover` runs and, if it opened its file, the file joins the log.
   `stamp` renders the mtime, `opens` says whether `fopen` succeeds.
   */
  function Visit(mode: Mode, image: seq<uint8>, opens: seq<uint8> -> bool,
                 stamp: nat -> seq<uint8>, st: Pass, occ: Occurrence): (r: Pass)
    requires occ.off + SIZE_UNIT <= |image|
    ensures r.data.Keys == st.data.Keys
    ensures st.log <= r.log && |r.log| <= |st.log| + 1
  {
    if |st.data| == 0 then st
    else
      var hdr := UnitAt(image, occ.off);
      var size := Field(hdr, OFF_SIZE, LEN_SIZE);
      if size == 0 then st
      else
        var name := OutputName(hdr, stamp);
        if occ.obj in st.data && |st.data[occ.obj]| > 0 then
          var f := RecoverFile(mode, name, ChunkCount(size), st.data[occ.obj], opens);
          if f.status == YAFFS2_OK then
            Pass(st.data[occ.obj := f.rest], st.log + [Output(name, occ.obj, f.written)])
          else st
        else st
  }

  /** The pass over a run of occurrences, threading the pool through. */
  function Walk(mode: Mode, image: seq<uint8>, opens: seq<uint8> -> bool,
                stamp: nat -> seq<uint8>, st: Pass, occs: seq<Occurrence>): (r: Pass)
    requires forall i :: 0 <= i < |occs| ==> occs[i].off + SIZE_UNIT <= |image|
    ensures r.data.Keys == st.data.Keys
    ensures st.log <= r.log && |r.log| <= |st.log| + |occs|
    decreases |occs|
  {
    if |occs| == 0 then st
    else Walk(mode, image, opens, stamp, Visit(mode, image, opens, stamp, st, occs[0]), occs[1..])
  }

  /** Every occurrence is a filed header offset. */
  lemma {:induction false} OccurrencesFiled(hm: ObjMap)
    ensures forall i :: 0 <= i < |Occurrences(hm)| ==>
      Filed(hm, Occurrences(hm)[i].obj, Occurrences(hm)[i].blk, Occurrences(hm)[i].off)
    decreases |hm|
  {
    if |hm| > 0 {
      var o := MaxOf(hm.Keys);
      var w := Without(hm, o);
      OccurrencesFiled(w);
      ChainMembers(hm[o]);
      var t := Tagged(o, Chain(hm[o]));
      var occs := Occurrences(hm);
      forall i | 0 <= i < |occs|
        ensures Filed(hm, occs[i].obj, occs[i].blk, occs[i].off)
      {
        if i < |t| {
          assert occs[i] == t[i];
        } else {
          assert occs[i] == Occurrences(w)[i - |t|];
        }
      }
    }
  }

  /** Occurrence a is visited before b by the three nested reverse loops. */
  predicate VisitedBefore(a: Occurrence, b: Occurrence)
  {
    a.obj > b.obj || (a.obj == b.obj && Newer(Slot(a.blk, a.off), Slot(b.blk, b.off)))
  }

  /**
   The visiting order of `Recover`: objects by descending id, and within an
   object blocks by descending id and offsets from the back of each bucket.
   */
  lemma {:induction false} OccurrencesNewestFirst(hm: ObjMap)
    requires Shaped(hm)
    ensures forall i, j :: 0 <= i < j < |Occurrences(hm)| ==>
      VisitedBefore(Occurrences(hm)[i], Occurrences(hm)[j])
    decreases |hm|
  {
    if |hm| > 0 {
      var o := MaxOf(hm.Keys);
      var w := Without(hm, o);
      var c := Chain(hm[o]);
      var t := Tagged(o, c);
      var occs := Occurrences(hm);
      assert occs == t + Occurrences(w);
      OccurrencesNewestFirst(w);
      OccurrencesFiled(w);
      ChainNewestFirst(hm[o]);
      forall i, j | 0 <= i < j < |occs|
        ensures VisitedBefore(occs[i], occs[j])
      {
        if j < |t| {
          assert occs[i] == t[i] && occs[j] == t[j];
          assert Newer(c[i], c[j]);
        } else if i < |t| {
          var q := Occurrences(w)[j - |t|];
          assert occs[j] == q;
          assert Filed(w, q.obj, q.blk, q.off);
          assert q.obj in w;
        } else {
          assert occs[i] == Occurrences(w)[i - |t|];
          assert occs[j] == Occurrences(w)[j - |t|];
        }
      }
    }
  }

  /** What `Recover` returns and leaves: its status, the indices, the files written. */
  datatype Outcome = Outcome(status: int, sb: SuperBlock, log: seq<Output>)

  /**
   `Recover`: the pass over every header occurrence, newest first. The
   header index is only read; the image is the handle `Build` kept. The
   status is YAFFS2_OK whatever `recover` reported.
   */
  function Recover(mode: Mode, sb: SuperBlock, image: seq<uint8>,
                   opens: seq<uint8> -> bool, stamp: nat -> seq<uint8>): (r: Outcome)
    requires InImage(sb.objHeaderMap, image)
    ensures r.status == YAFFS2_OK && r.sb.objHeaderMap == sb.objHeaderMap
    ensures r.sb.dataChunkMap.Keys == sb.dataChunkMap.Keys
    ensures |r.log| <= |Occurrences(sb.objHeaderMap)|
  {
    var occs := Occurrences(sb.objHeaderMap);
    OccurrencesFiled(sb.objHeaderMap);
    var p := Walk(mode, image, opens, stamp, Pass(sb.dataChunkMap, []), occs);
    Outcome(YAFFS2_OK, sb.(dataChunkMap := p.data), p.log)
  }

  /**
   The bytes `recover` as written appends for the data unit u: as many
   bytes of its buffer as the unit's own byte-count field says, with no cap.
   A count above SIZE_UNIT reads past the end of `buf_`; the model returns
   None for it.
   */
  function ChunkBytesAsWritten(u: seq<uint8>): Option<seq<uint8>>
    requires |u| == SIZE_UNIT
  {
    var count := Field(u, OFF_SIZE, LEN_SIZE);
    if count <= SIZE_UNIT then Some(u[..count]) else None
  }

  /** The evidently intended bytes: the byte count, capped at the chunk area. */
  function ChunkBytes(u: seq<uint8>): seq<uint8>
    requires |u| == SIZE_UNIT
  {
    u[..Min(Field(u, OFF_SIZE, LEN_SIZE), SIZE_CHUNK)]
  }

  /** Every chunk offset addresses a whole unit of the image. */
  predicate ChunksInImage(chunks: seq<nat>, image: seq<uint8>)
  {
    forall i :: 0 <= i < |chunks| ==> chunks[i] + SIZE_UNIT <= |image|
  }

  /** The content of an output file: its chunks' bytes in write order. */
  function FileContent(image: seq<uint8>, chunks: seq<nat>): seq<uint8>
    requires ChunksInImage(chunks, image)
    decreases |chunks|
  {
    if |chunks| == 0 then []
    else ChunkBytes(UnitAt(image, chunks[0])) + FileContent(image, chunks[1..])
  }

  /** Every filed header offset is visited: the converse of `OccurrencesFiled`. */
  lemma {:induction false} OccurrencesComplete(hm: ObjMap, o: nat, b: nat, x: nat)
    requires Filed(hm, o, b, x)
    ensures Occurrence(o, b, x) in Occurrences(hm)
    decreases |hm|
  {
    var m := MaxOf(hm.Keys);
    var w := Without(hm, m);
    var t := Tagged(m, Chain(hm[m]));
    assert Occurrences(hm) == t + Occurrences(w);
    if o == m {
      var j :| 0 <= j < |hm[o][b]| && hm[o][b][j] == x;
      ChainCovers(hm[o], b, j);
      var i :| 0 <= i < |Chain(hm[o])| && Chain(hm[o])[i] == Slot(b, x);
      assert t[i] == Occurrence(o, b, x);
    } else {
      assert Bucket(w, o, b) == Bucket(hm, o, b);
      OccurrencesComplete(w, o, b, x);
    }
  }

  /** When the count fits the chunk area, the corrected read is the read as written. */
  lemma ChunkBytesAgree(u: seq<uint8>)
    requires |u| == SIZE_UNIT
    requires Field(u, OFF_SIZE, LEN_SIZE) <= SIZE_CHUNK
    ensures ChunkBytesAsWritten(u) == Some(ChunkBytes(u))
  {
  }

  /**
   The corrected read takes nothing from the OOB tag area beyond the byte
   count: two units with the same chunk area and the same count give the
   same bytes, at most SIZE_CHUNK of them.
   */
  lemma ChunkBytesIgnoresTags(u: seq<uint8>, u': seq<uint8>)
    requires |u| == SIZE_UNIT && |u'| == SIZE_UNIT
    requires u[..SIZE_CHUNK] == u'[..SIZE_CHUNK]
    requires Field(u, OFF_SIZE, LEN_SIZE) == Field(u', OFF_SIZE, LEN_SIZE)
    ensures ChunkBytes(u) == ChunkBytes(u') && |ChunkBytes(u)| <= SIZE_CHUNK
  {
    var c := Min(Field(u, OFF_SIZE, LEN_SIZE), SIZE_CHUNK);
    assert u[..c] == u[..SIZE_CHUNK][..c];
    assert u'[..c] == u'[..SIZE_CHUNK][..c];
  }

  /**
   A file holds at most SIZE_CHUNK bytes per chunk, and begins with the
   capped payload of its first (oldest) chunk.
   */
  lemma {:induction false} FileContentBound(image: seq<uint8>, chunks: seq<nat>)
    requires ChunksInImage(chunks, image)
    ensures |FileContent(image, chunks)| <= |chunks| * SIZE_CHUNK
    ensures |chunks| > 0 ==> FileContent(image, chunks)[..|ChunkBytes(UnitAt(image, chunks[0]))|]
                               == ChunkBytes(UnitAt(image, chunks[0]))
    decreases |chunks|
  {
    if |chunks| > 0 {
      FileContentBound(image, chunks[1..]);
    }
  }
}
